=== FILE: README.md ===
# leddmx device session, modelled in Dafny

This project models the device-control core of the leddmx Home Assistant
integration: the class `BJLEDInstance` in `custom_components/leddmx/dmxled.py`,
which drives a Bluetooth LE RGB strip by writing nine-byte command frames to
one GATT characteristic. It also models the retry decorator
`retry_bluetooth_connection_error` wrapped around the light operations.

The modules follow the structure of that file:

- `Base` (base.dfy) holds the shared vocabulary:
  - an option type;
  - the BLE fault families the driver tells apart: not-found, DBus, other BleakError, the connector's other retryable errors, and foreign exceptions;
  - the Python errors the colour path can raise;
  - the outcome of a call.
- `Commands` (commands.dfy) is the command encoder:
  - the fixed ON/OFF frames;
  - the colour and effect frames, with a decoder as their inverse;
  - the two-stage brightness scaling. Python's `int(x / d)` is modelled as division truncated toward zero.
- `RetryPolicy` (retry.dfy) is the retry decorator, in two forms:
  - a pure policy over a script of attempt outcomes;
  - a generic wrapper over any attempt function on a state.

  A lemma ties the two forms together, and further lemmas lift per-attempt facts to whole runs.
- `Session` (session.dfy) holds the session state and the connection lifecycle:
  - the state record, the session invariant and the write characteristic lookup;
  - `_ensure_connected`, the idle timer, `_write`, `stop` and the timed disconnect.
- `Control` (control.dfy) holds the light operations `set_rgb_color`, `set_brightness_local`, `turn_on`, `turn_off`, `set_effect` and `update`. Each except `set_brightness_local` is one attempt run under the retry wrapper; `set_brightness_local` is not wrapped itself but calls the wrapped `set_rgb_color`.
- `Machine` (machine.dfy) runs a session over any sequence of events:
  - host calls, the idle timer firing, and the link dropping;
  - proves the session invariant in every state reachable from a fresh session;
  - proves a few end-to-end scenarios.

The BLE stack is an oracle held in `Env`. Its reply to the n-th connect, write or disconnect call is an input. A refused write may also report the link lost, as BlueZ does when a write fails because the device went away; the client is then disconnected and the next attempt reconnects. The world records a log of the calls made: connect attempts, every packet passed to a write call (failed writes included), and disconnect calls. The write characteristic is kept in the state but the oracle's reply does not depend on it. The effects table is any map from names to codes in 1..255 with AUTO mapped to 255, because its module is not part of this model.

Behaviour of the code that is easy to misread:

- **Colour and effect are stored before the write.** `set_rgb_color` and `set_effect` store the colour or effect before writing, so a failed write keeps them. Only the power state waits for a successful write.
- **`stop` does not cancel the idle timer.** A timer that fires later tears down again. This makes no transport call because the client is already gone.
- **A missing write characteristic is not rejected locally.** `_write` checks only for a missing command, which cannot happen here. A write with no characteristic goes to the stack like any other.
- **Clearing the effect rescales the colour.** `set_effect("None")` resends the stored colour scaled by the stored brightness. At brightness 255 every colour comes out unchanged; a colour with a non-zero channel comes out unchanged at no other brightness in 0..255.
- **A brightness is always stored.** The stored brightness is optional in the code. Every reachable state has one, so the missing-brightness error is modelled but shown to be unreachable, as long as `set_brightness_local` is passed an int, as its annotation at `custom_components/leddmx/dmxled.py:227` says.

## Model

| member | source | states |
|---|---|---|
| Commands.Encode | custom_components/leddmx/dmxled.py:219-257 | the colour frame of lines 219-223 and the effect frame of lines 256-257: every frame is nine bytes opened by 0x7b and closed by 0xbf |
| Commands.Decode | custom_components/leddmx/dmxled.py:219-223 | any frame it accepts is re-encoded to exactly that frame, so colour and effect frames are recognisable |
| Commands.DecodeEncode | custom_components/leddmx/dmxled.py:219-223 | decoding an encoded command gives the command back |
| Commands.PowerCommandsAreColours | custom_components/leddmx/dmxled.py:32-33 | the ON constant is the colour frame for full blue, OFF the one for black, and they differ |
| Commands.TruncDiv | custom_components/leddmx/dmxled.py:213-217 | the quotient is rounded toward zero for either sign of the dividend, as `int()` of a float quotient |
| Commands.Percent | custom_components/leddmx/dmxled.py:213 | the brightness as a whole percentage of 255 rounded down: 255 times it is within 255 below 100 times the brightness; for a brightness in 0..255 it is at most 100, and 100 exactly at 255 |
| Commands.Scale | custom_components/leddmx/dmxled.py:215-217 | the two-stage channel scaling; its contract is carried by ScaleWithinChannel, ScaleFullBrightness, ScaleBelowFull, ScaleZeroBrightness, ScaleMonotone and ScaleVersusSingleStage |
| Commands.ColourPacket | custom_components/leddmx/dmxled.py:213-223 | no frame exactly when a scaled channel falls outside 0..255; otherwise the frame decodes to the three scaled channels; a valid colour at a brightness in 0..255 always gives a frame no brighter than the colour; 255 gives the colour's own frame; 0 gives the OFF frame |
| Commands.EffectPacket | custom_components/leddmx/dmxled.py:256-257 | the effect frame decodes to that effect code |
| Commands.ScaleWithinChannel | custom_components/leddmx/dmxled.py:213-217 | a channel scaled by a brightness in 0..255 stays between 0 and the channel |
| Commands.ScaleFullBrightness | custom_components/leddmx/dmxled.py:213-217 | brightness 255 leaves every channel unchanged |
| Commands.ScaleBelowFull | custom_components/leddmx/dmxled.py:213-217 | below brightness 255 every positive channel comes out strictly darker, so only 255 resends a lit colour unchanged |
| Commands.ScaleZeroBrightness | custom_components/leddmx/dmxled.py:213-217 | brightness 0 blacks out every non-negative channel |
| Commands.ScaleTwoStageExample | custom_components/leddmx/dmxled.py:213-217 | at brightness 200 the percentage is 78 and a full channel becomes 198, where single-stage scaling gives 200 |
| Commands.ScaleVersusSingleStage | custom_components/leddmx/dmxled.py:213-217 | for bytes, the two-stage result is never above the single-stage one and at most 3 below it |
| Commands.ScaleMonotone | custom_components/leddmx/dmxled.py:213-217 | a higher brightness never gives a darker channel |
| RetryPolicy.Classify | custom_components/leddmx/dmxled.py:50-91 | an error is retried exactly when it is DBus, another BleakError or a connector-retryable error and attempts remain; the back-off happens exactly for DBus; not-found is always re-raised |
| RetryPolicy.JudgeFrom | custom_components/leddmx/dmxled.py:48-91 | the call ends at the first attempt that is not a retried failure, or at the last attempt; its outcome is that attempt's; every earlier attempt was a retried failure; the back-offs are the DBus failures among them |
| RetryPolicy.Judge | custom_components/leddmx/dmxled.py:45-48 | a call makes between one and three attempts |
| RetryPolicy.JudgeCases | custom_components/leddmx/dmxled.py:48-91 | the first success returns; not-found and foreign errors end the call after one attempt; DBus then success takes 2 attempts and 1 back-off; BleakError then success takes 2 attempts and none; two retried failures lead to a third attempt whose outcome is final |
| RetryPolicy.RetryFrom | custom_components/leddmx/dmxled.py:41-102 | the stateful wrapper makes at most three attempts, returns or raises what its last attempt did, and retried only failures it may retry |
| RetryPolicy.RetryReplays | custom_components/leddmx/dmxled.py:41-102 | the run replays its attempt body: the first attempt starts from the call's state, each later attempt from the state the previous one left, every trace entry is what its attempt returned or raised, and the final state is what the last attempt left |
| RetryPolicy.RetryExhausted | custom_components/leddmx/dmxled.py:48-91 | three retryable failures in a row end the call after exactly three attempts with the last error and the last attempt's state |
| RetryPolicy.Retry | custom_components/leddmx/dmxled.py:45-48 | a wrapped call makes between one and three attempts |
| RetryPolicy.RetryFollowsPolicy | custom_components/leddmx/dmxled.py:48-91 | the stateful wrapper agrees with the pure policy on the outcomes its attempts produced: same result, attempt count and back-off count |
| RetryPolicy.RetryPreserves | custom_components/leddmx/dmxled.py:48-50 | a property every attempt keeps holds after the whole wrapped call |
| RetryPolicy.RetryLastAttempt | custom_components/leddmx/dmxled.py:48-50 | the call's result is that of an attempt made from a state reached through failed attempts only |
| RetryPolicy.RetryCountBound | custom_components/leddmx/dmxled.py:48-50 | a counter each attempt raises by at most k rises by at most k per attempt made |
| Session.Resolve | custom_components/leddmx/dmxled.py:303-309 | the write characteristic becomes the first candidate the services offer; with none offered the previous one stays |
| Session.ResolveIdempotent | custom_components/leddmx/dmxled.py:293-297 | resolving twice on the same services gives what resolving once gives, so the second try cannot rescue the first |
| Session.ResetTimer | custom_components/leddmx/dmxled.py:311-322 | the disconnect is unexpected again and a timer is pending exactly when the delay is set and non-zero; nothing else changes |
| Session.EnsureConnected | custom_components/leddmx/dmxled.py:268-301 | a live client is reused without a connect call; otherwise exactly one connect call is made; success leaves a client connected over the services the stack offered, the characteristic resolved against them, a rescheduled timer and services cached exactly when a characteristic is known; a failure raises the connect call's own error and changes no state; the session invariant is kept |
| Session.Send | custom_components/leddmx/dmxled.py:150-162 | at most one write call and only of the given frame, made only over a live link or right after a successful connect call, with the idle timer rescheduled; without a live link exactly one connect call is made; it returns exactly when the device acknowledged that write, leaving a live client; a refused write raises that write's error and leaves the client disconnected exactly when the link went down with it; with no write call the raise is the failed connect's error |
| Session.Stop | custom_components/leddmx/dmxled.py:349-365 | the client and characteristic are forgotten and the disconnect is expected; a disconnect call is made only for a live link; BleakErrors from it are swallowed and any other error is raised as the disconnect call reported it |
| Session.TimerFires | custom_components/leddmx/dmxled.py:334-347 | a pending timer forgets itself and runs the same teardown as stop; with no timer nothing happens |
| Session.LinkLost | custom_components/leddmx/dmxled.py:324-332 | a dropped link keeps the client object but it no longer counts as connected; nothing else changes |
| Session.StopTwice | custom_components/leddmx/dmxled.py:339-365 | a second stop makes no transport call and changes nothing |
| Session.TimerAfterStop | custom_components/leddmx/dmxled.py:334-365 | a timer firing after stop makes no transport call and returns |
| Control.ColourErrorOrFrame | custom_components/leddmx/dmxled.py:207-223 | a colour call fails early exactly when it has no frame to write; the missing-brightness error happens exactly when no brightness is given or stored |
| Control.SetRgbAttempt | custom_components/leddmx/dmxled.py:204-225 | one attempt stores the colour; it stores 255 and raises when no brightness is given or stored; it raises the early error without a transport call, or writes only the colour frame |
| Control.SetRgbColor | custom_components/leddmx/dmxled.py:203-225 | set_rgb_color under the retry wrapper; its contract is SetRgbColorSpec |
| Control.SetRgbColorSpec | custom_components/leddmx/dmxled.py:203-225 | the colour is stored and the brightness kept; an early error is raised after one attempt with no transport call; otherwise only the colour frame is written, a return means it was acknowledged and a raise means every write was refused; at most three writes; the invariant is kept |
| Control.RetryWroteOnly | custom_components/leddmx/dmxled.py:48-50 | if every attempt writes only one frame and returns only on an acknowledged write, so does the wrapped call |
| Control.SetBrightnessLocal | custom_components/leddmx/dmxled.py:227-231 | set_brightness_local; its contract is SetBrightnessLocalSpec |
| Control.SetBrightnessLocalSpec | custom_components/leddmx/dmxled.py:227-231 | the new brightness is stored whatever happens; with no stored colour the call raises without a transport call; otherwise it writes only the stored colour's frame at that brightness, or raises when it does not fit |
| Control.PowerAttempt | custom_components/leddmx/dmxled.py:233-241 | one attempt writes only the power frame and records the power state only if the write returned |
| Control.SetPower | custom_components/leddmx/dmxled.py:233-241 | turn_on or turn_off under the retry wrapper; its contract is SetPowerSpec |
| Control.TurnOn | custom_components/leddmx/dmxled.py:233-236 | turn_on; its contract is SetPowerSpec with the power on |
| Control.TurnOff | custom_components/leddmx/dmxled.py:238-241 | turn_off; its contract is SetPowerSpec with the power off |
| Control.SetPowerSpec | custom_components/leddmx/dmxled.py:233-241 | turn_on and turn_off write only their fixed frame; the power state becomes on or off exactly when the call returns and is unchanged after a raise; colour, brightness and effect are untouched; at most three writes |
| Control.SetEffectAttempt | custom_components/leddmx/dmxled.py:243-261 | an unknown name changes nothing; "None" clears the effect and is exactly the wrapped set_rgb_color call, with its own retries, on the stored colour or white; a table name is stored and only its effect frame is written |
| Control.SetEffect | custom_components/leddmx/dmxled.py:243-261 | set_effect under the retry wrapper; its contract is SetEffectSpec |
| Control.SetEffectSpec | custom_components/leddmx/dmxled.py:243-261 | an unknown name changes nothing and writes nothing; a table name is stored and only its frame written; "None" clears the effect, stores the fallback colour and writes only its frame; nested retries allow at most nine writes, a bound ClearEffectNestsRetries shows is reached |
| Control.RefusedColourThreeWrites | custom_components/leddmx/dmxled.py:203-225 | with every write refused by a retryable error that keeps the link, a full-brightness colour call makes three attempts of one write each and raises |
| Control.ClearEffectNestsRetries | custom_components/leddmx/dmxled.py:243-254 | the nine-write bound is reached: with every write refused, set_effect("None") makes three outer attempts, each a whole set_rgb_color of three attempts, writing nine frames before it raises |
| Control.ClearEffectAtFullBrightness | custom_components/leddmx/dmxled.py:250-254 | at stored brightness 255, clearing the effect resends the stored colour's frame unscaled |
| Control.AutoEffectFrame | custom_components/leddmx/dmxled.py:256-257 | the AUTO effect frame is 7b ff 03 ff ff ff ff ff bf |
| Control.Update | custom_components/leddmx/dmxled.py:263-266 | update returns after one attempt and changes nothing |
| Machine.Apply | custom_components/leddmx/dmxled.py:203-365 | every event keeps the session invariant, and in a valid state no call raises the missing-brightness error |
| Machine.StartValid | custom_components/leddmx/dmxled.py:118-128 | a freshly constructed session satisfies the invariant, with brightness 255 |
| Machine.Exec | custom_components/leddmx/dmxled.py:203-365 | a session driven by a sequence of events; its contract is ExecKeepsValid |
| Machine.ExecKeepsValid | custom_components/leddmx/dmxled.py:203-365 | any sequence of events from a valid state ends in a valid state |
| Machine.Reachable | custom_components/leddmx/dmxled.py:207-213 | in every reachable state a brightness is stored, so the missing-brightness error never happens; without an idle delay no timer is pending; a live link's disconnect is unexpected; without a client there is no characteristic |
| Machine.BrightnessBeforeColour | custom_components/leddmx/dmxled.py:227-231 | on a fresh session, a brightness change raises the missing-colour error without a transport call but keeps the new brightness |
| Machine.BusyAdapterRetried | custom_components/leddmx/dmxled.py:55-77 | a DBus refusal then an acknowledgement gives two writes of the frame over one connection, one back-off and a return |
| Machine.LinkLostRetriedOverNewLink | custom_components/leddmx/dmxled.py:55-77 | a refused write that takes the link down is followed by a second attempt that reconnects; turn_on then returns with two connect calls, two writes of the on frame, no back-off and the lamp on |
| Machine.NotFoundNotRetried | custom_components/leddmx/dmxled.py:51-54 | a device the stack cannot find costs one connect attempt, no write, a raise, and leaves the power state unknown |
| Machine.IdleTimerCloses | custom_components/leddmx/dmxled.py:311-322 | with an idle delay, turn_on leaves a timer pending; when it fires the link is closed and forgotten and the power state is kept |

## Left out

- The asyncio connect lock and its double-checked locking. Operations are modelled as running one at a time, so the race between concurrent callers is not modelled.
- `call_later` and `create_task` scheduling and the 0.25 s back-off sleep. A pending timer is a state value, its firing is an event, and a back-off is a count.
- Logging, `ColorMode`, the effect speed and the property accessors (`mac`, `name`, `rssi`, `reset`, `is_on` and the rest). They carry no behaviour.
- `_detect_model`. Both of its branches install the same ON/OFF frames, which are used directly.
- The `None` check in `_write` and `_write_while_connected`. No operation passes a missing command, so the check is unreachable.
- BLE discovery, the fallback device object, and the services cache passed back to `establish_connection`. They are inputs the stack oracle abstracts away.
- The contents of the effects table. Its module is not part of this model; any table with codes in 1..255 and AUTO at 255 is allowed.
- The BLE scanning script, which does I/O and printing only.
- Commands.TruncDiv: float division is modelled as exact. Python's float quotient agrees with it for every value a byte channel or brightness produces, but not for integers beyond 2^53.
- An AttributeError from writing through a client object that has gone away is not modelled. The connector counts it as retryable, but with operations running one at a time the client is always present at the write.
- Commands.Encode: its contract states only the frame's length, header and footer. The byte layout in between is pinned down by Decode, whose contract re-encodes every frame it accepts, and by DecodeEncode.
- RetryPolicy.Judge: its contract gives only the attempt bound. The rest of the policy is JudgeFrom's contract at attempt 0.
- A `None` argument to `set_brightness_local` is not modelled. The parameter is annotated as an int and the model takes an int. In the code, `None` would be stored as the brightness and the colour call that follows would store 255 and then raise TypeError.
- RetryPolicy.Retry: its contract gives only the attempt bound. The rest of the wrapper is RetryFrom's contract at attempt 0.
- RetryPolicy.RetryFrom: its contract says nothing about which states the attempts ran on. That link between the run and its attempt body is stated by RetryReplays, which keeps the wrapper's own proof small.
- Control.SetEffect: the back-off count of the outer wrapper does not include the back-offs made by the nested set_rgb_color call when the effect is cleared. The nested call's sleeps are real in the code, but the attempt interface returns only a state and an outcome, so they are not counted.

=== FILE: base.dfy ===
/** Shared vocabulary: an option type, the exception families the driver
    distinguishes, and the outcome of one call into the driver. */
module Base {

  datatype Option<+T> = None | Some(value: T)

  /** Failures reported by the BLE stack, grouped by how the driver treats them. */
  datatype Fault =
    | NotFound   // BleakNotFoundError: the device is gone, never retried
    | DBus       // BleakDBusError: the adapter is busy, retried after a back-off
    | Bleak      // any other BleakError
    | Transient  // the connector library's other retryable errors (timeouts and the like)
    | Foreign    // an exception outside the BLE families

  /** Everything an operation can raise: a transport fault, or one of the
      Python errors the colour path runs into on missing or oversized data. */
  datatype Error =
    | Transport(fault: Fault)
    | BrightnessIsNone  // TypeError: arithmetic on a None brightness
    | ColourIsNone      // TypeError: indexing a None colour
    | ByteOutOfRange    // ValueError: appending a channel outside 0..255

  /** Result of one attempt or one whole operation: returned, or raised. */
  datatype Outcome = Done | Raised(err: Error)
}

=== FILE: commands.dfy ===
/** The command encoder: every command the strip understands is a nine-byte
    frame opened by 0x7b and closed by 0xbf. */
module Commands {
  import opened Base

  type Byte = x: int | 0 <= x < 256
  type Packet = seq<Byte>

  const Header: Byte := 0x7b
  const Footer: Byte := 0xbf

  /** The fixed power commands. */
  const TurnOnCmd: Packet := [0x7b, 0xff, 0x07, 0x00, 0x00, 0xff, 0x00, 0xff, 0xbf]
  const TurnOffCmd: Packet := [0x7b, 0xff, 0x07, 0x00, 0x00, 0x00, 0x00, 0xff, 0xbf]

  /** A colour as the host hands it over: three unchecked integers. */
  datatype Rgb = Rgb(r: int, g: int, b: int)

  predicate IsByte(x: int) { 0 <= x < 256 }

  predicate ValidRgb(c: Rgb) { IsByte(c.r) && IsByte(c.g) && IsByte(c.b) }

  /** The two frames the encoder produces from parameters. */
  datatype Command = Colour(r: Byte, g: Byte, b: Byte) | Effect(code: Byte)

  function Encode(c: Command): (p: Packet)
    ensures |p| == 9 && p[0] == Header && p[8] == Footer
  {
    match c
    case Colour(r, g, b) => [0x7b, 0xff, 0x07, r, g, b, 0x00, 0xff, 0xbf]
    case Effect(code) => [0x7b, 0xff, 0x03, code, 0xff, 0xff, 0xff, 0xff, 0xbf]
  }

  /** Reads a frame back; the inverse of Encode on every frame it accepts. */
  function Decode(p: Packet): (c: Option<Command>)
    ensures c.Some? ==> Encode(c.value) == p
  {
    if |p| == 9 && p[0] == 0x7b && p[1] == 0xff && p[8] == 0xbf then
      if p[2] == 0x07 && p[6] == 0x00 && p[7] == 0xff then
        Some(Colour(p[3], p[4], p[5]))
      else if p[2] == 0x03 && p[4] == 0xff && p[5] == 0xff && p[6] == 0xff && p[7] == 0xff then
        Some(Effect(p[3]))
      else None
    else None
  }

  lemma DecodeEncode(c: Command)
    ensures Decode(Encode(c)) == Some(c)
  {
  }

  /** The power commands are colour frames: ON is full blue, OFF is black. */
  lemma PowerCommandsAreColours()
    ensures Decode(TurnOnCmd) == Some(Colour(0x00, 0x00, 0xff))
    ensures Decode(TurnOffCmd) == Some(Colour(0x00, 0x00, 0x00))
    ensures TurnOnCmd != TurnOffCmd
  {
  }

  /** Python's `int(a / d)` for a positive divisor: the quotient rounded toward
      zero (Dafny's `/` rounds toward minus infinity for negative `a`). */
  function TruncDiv(a: int, d: int): (q: int)
    requires d > 0
    ensures 0 <= a ==> 0 <= q * d <= a < q * d + d
    ensures a < 0 ==> q <= 0 && a <= q * d < a + d
  {
    if a >= 0 then
      DivBounds(a, d);
      a / d
    else
      DivBounds(-a, d);
      -((-a) / d)
  }

  /** First stage of the scaling: brightness as a whole percentage of 255,
      rounded down; only full brightness is 100 percent. */
  function Percent(brightness: int): (pct: int)
    ensures 0 <= brightness ==> 0 <= pct && 255 * pct <= 100 * brightness < 255 * pct + 255
    ensures 0 <= brightness <= 255 ==> (pct <= 100 && (pct == 100 <==> brightness == 255))
  {
    TruncDiv(brightness * 100, 255)
  }

  /** Second stage: the channel scaled by that percentage, truncated again. */
  function Scale(channel: int, brightness: int): int
  {
    TruncDiv(channel * Percent(brightness), 100)
  }

  /** Single-stage reference scaling `channel * brightness / 255`, against
      which Scale is compared. */
  function SingleStage(channel: nat, brightness: nat): nat
  {
    channel * brightness / 255
  }

  /** The colour frame for `rgb` dimmed to `brightness`, or None when a scaled
      channel does not fit in a byte (the source then fails on `append`). */
  function ColourPacket(rgb: Rgb, brightness: int): (p: Option<Packet>)
    ensures p.None? <==>
      !IsByte(Scale(rgb.r, brightness)) || !IsByte(Scale(rgb.g, brightness)) || !IsByte(Scale(rgb.b, brightness))
    ensures p.Some? ==> Decode(p.value) == Some(Colour(Scale(rgb.r, brightness), Scale(rgb.g, brightness), Scale(rgb.b, brightness)))
    ensures ValidRgb(rgb) && IsByte(brightness) ==>
      p.Some? && p.value[3] <= rgb.r && p.value[4] <= rgb.g && p.value[5] <= rgb.b
    ensures ValidRgb(rgb) && brightness == 255 ==> p == Some(Encode(Colour(rgb.r, rgb.g, rgb.b)))
    ensures brightness == 0 && rgb.r >= 0 && rgb.g >= 0 && rgb.b >= 0 ==> p == Some(TurnOffCmd)
  {
    ChannelFacts(rgb.r, brightness);
    ChannelFacts(rgb.g, brightness);
    ChannelFacts(rgb.b, brightness);
    var r, g, b := Scale(rgb.r, brightness), Scale(rgb.g, brightness), Scale(rgb.b, brightness);
    if IsByte(r) && IsByte(g) && IsByte(b) then Some(Encode(Colour(r, g, b))) else None
  }

  /** The per-channel facts ColourPacket's contract rests on. */
  lemma ChannelFacts(channel: int, brightness: int)
    ensures 0 <= channel && 0 <= brightness <= 255 ==> 0 <= Scale(channel, brightness) <= channel
    ensures Scale(channel, 255) == channel
    ensures 0 <= channel ==> Scale(channel, 0) == 0
  {
    if 0 <= channel && 0 <= brightness <= 255 {
      ScaleWithinChannel(channel, brightness);
    }
    ScaleFullBrightness(channel);
    if 0 <= channel {
      ScaleZeroBrightness(channel);
    }
  }

  /** The effect frame for a one-byte effect code. */
  function EffectPacket(code: Byte): (p: Packet)
    ensures Decode(p) == Some(Effect(code))
  {
    Encode(Effect(code))
  }

  /** A non-negative channel dimmed by a brightness in 0..255 never grows, so
      it still fits in a byte. */
  lemma ScaleWithinChannel(channel: int, brightness: int)
    requires 0 <= channel && 0 <= brightness <= 255
    ensures 0 <= Scale(channel, brightness) <= channel
  {
    var pct := Percent(brightness);
    assert 0 <= pct <= 100;
    assert 0 <= channel * pct <= channel * 100 by {
      MulMonotone(channel, pct, 100);
    }
  }

  /** Full brightness leaves every channel unchanged. */
  lemma ScaleFullBrightness(channel: int)
    ensures Scale(channel, 255) == channel
  {
    assert Percent(255) == 100;
  }

  /** Below full brightness every positive channel comes out strictly
      darker, so only brightness 255 resends a lit colour unchanged. */
  lemma ScaleBelowFull(channel: int, brightness: int)
    requires 0 < channel && 0 <= brightness < 255
    ensures Scale(channel, brightness) < channel
  {
    var pct := Percent(brightness);
    assert channel * pct <= channel * 99 by {
      MulMonotone(channel, pct, 99);
    }
  }

  /** Zero brightness blacks out every non-negative channel. */
  lemma ScaleZeroBrightness(channel: int)
    requires 0 <= channel
    ensures Scale(channel, 0) == 0
  {
    assert Percent(0) == 0;
  }

  /** The two truncations lose precision: at brightness 200 a full channel
      becomes 198, where a single-stage scaling gives 200. */
  lemma ScaleTwoStageExample()
    ensures Percent(200) == 78
    ensures Scale(255, 200) == 198
    ensures SingleStage(255, 200) == 200
  {
  }

  /** Against the single-stage reference: never brighter, and at most 3 darker. */
  lemma ScaleVersusSingleStage(channel: int, brightness: int)
    requires 0 <= channel <= 255 && 0 <= brightness <= 255
    ensures Scale(channel, brightness) <= SingleStage(channel, brightness)
    ensures SingleStage(channel, brightness) <= Scale(channel, brightness) + 3
  {
    var q, s := Scale(channel, brightness), SingleStage(channel, brightness);
    var cb, cp := channel * brightness, channel * Percent(brightness);
    assert 100 * q <= cp < 100 * q + 100;
    assert 255 * s <= cb < 255 * s + 255 by {
      DivBounds(cb, 255);
    }
    assert 255 * cp <= 100 * cb <= 255 * cp + 255 * channel by {
      ScaledBracket(channel, Percent(brightness), brightness);
    }
    TwoFloors(q, s, cb, cp, channel);
  }

  /** The bracket 255 * pct <= 100 * b < 255 * pct + 255 scaled by a channel. */
  lemma ScaledBracket(c: int, pct: int, b: int)
    requires 0 <= c && 255 * pct <= 100 * b < 255 * pct + 255
    ensures 255 * (c * pct) <= 100 * (c * b) <= 255 * (c * pct) + 255 * c
  {
    calc {
      255 * (c * pct);
    ==
      c * (255 * pct);
    <= { MulMonotone(c, 255 * pct, 100 * b); }
      c * (100 * b);
    ==
      100 * (c * b);
    }
    calc {
      100 * (c * b);
    ==
      c * (100 * b);
    <= { MulMonotone(c, 100 * b, 255 * pct + 255); }
      c * (255 * pct + 255);
    ==
      255 * (c * pct) + 255 * c;
    }
  }

  /** The linear core of ScaleVersusSingleStage, over the products as atoms:
      q = floor(cp / 100), s = floor(cb / 255), and cp is within a channel's
      worth of 100/255 * cb. */
  lemma TwoFloors(q: int, s: int, cb: int, cp: int, channel: int)
    requires 0 <= channel <= 255
    requires 100 * q <= cp < 100 * q + 100
    requires 255 * s <= cb < 255 * s + 255
    requires 255 * cp <= 100 * cb <= 255 * cp + 255 * channel
    ensures q <= s <= q + 3
  {
  }

  /** Raising the brightness never darkens a non-negative channel. */
  lemma ScaleMonotone(channel: int, dim: int, bright: int)
    requires 0 <= channel && 0 <= dim <= bright
    ensures Scale(channel, dim) <= Scale(channel, bright)
  {
    var p1, p2 := Percent(dim), Percent(bright);
    DivMonotone(dim * 100, bright * 100, 255);
    MulMonotone(channel, p1, p2);
    DivMonotone(channel * p1, channel * p2, 100);
  }

  lemma MulMonotone(a: int, x: int, y: int)
    requires 0 <= a && x <= y
    ensures a * x <= a * y
  {
  }

  lemma DivMonotone(x: int, y: int, d: int)
    requires 0 <= x <= y && d > 0
    ensures x / d <= y / d
  {
    DivBounds(x, d);
    DivBounds(y, d);
    if x / d > y / d {
      MulMonotone(d, y / d + 1, x / d);
    }
  }

  /** The quotient of a non-negative number brackets it between two multiples. */
  lemma DivBounds(a: int, d: int)
    requires 0 <= a && d > 0
    ensures 0 <= a / d
    ensures 0 <= (a / d) * d <= a < (a / d) * d + d
  {
    assert a == (a / d) * d + a % d;
  }
}

=== FILE: control.dfy ===
/** The light operations of a session: set_rgb_color, set_brightness_local,
    turn_on, turn_off, set_effect and update, each wrapped in the retry
    policy exactly where the driver wraps it. An attempt is a function from
    the world to the next world and the attempt's outcome; an operation is
    the retry wrapper run over its attempt. */
module Control {
  import opened Base
  import opened Commands
  import opened RetryPolicy
  import opened Session

  type Attempt = World -> (World, Outcome)

  /** The brightness set_rgb_color scales by: the one passed in, else the
      stored one. */
  function Effective(given: Option<int>, stored: Option<int>): Option<int>
  {
    if given.Some? then given else stored
  }

  /** The frame set_rgb_color writes for the given arguments against a stored
      brightness, when it gets as far as writing. */
  function ColourFrame(rgb: Option<Rgb>, given: Option<int>, stored: Option<int>): Option<Packet>
  {
    var b := Effective(given, stored);
    if b.Some? && rgb.Some? then ColourPacket(rgb.value, b.value) else None
  }

  /** The error set_rgb_color raises before it reaches the link, if any. */
  function ColourError(rgb: Option<Rgb>, given: Option<int>, stored: Option<int>): Option<Error>
  {
    if Effective(given, stored).None? then Some(BrightnessIsNone)
    else if rgb.None? then Some(ColourIsNone)
    else if ColourFrame(rgb, given, stored).None? then Some(ByteOutOfRange)
    else None
  }

  /** A colour call either fails early or has a frame to write, never both. */
  lemma ColourErrorOrFrame(rgb: Option<Rgb>, given: Option<int>, stored: Option<int>)
    ensures ColourError(rgb, given, stored).None? <==> ColourFrame(rgb, given, stored).Some?
    ensures ColourError(rgb, given, stored) == Some(BrightnessIsNone) <==> given.None? && stored.None?
    ensures ColourError(rgb, given, stored) == Some(ColourIsNone) <==> Effective(given, stored).Some? && rgb.None?
  {
  }

  /** One attempt of set_rgb_color: store the colour; with no brightness
      given and none stored, store 255 and raise; then fail on a missing
      colour or a channel that does not fit a byte, or write the frame. */
  function SetRgbAttempt(env: Env, w: World, rgb: Option<Rgb>, brightness: Option<int>): (r: (World, Outcome))
    ensures r.0.state.rgb == rgb && r.0.state.isOn == w.state.isOn && r.0.state.effect == w.state.effect
    ensures r.0.state.brightness == (if Effective(brightness, w.state.brightness).None? then Some(255) else w.state.brightness)
    ensures ColourError(rgb, brightness, w.state.brightness).Some? ==>
      r.1 == Raised(ColourError(rgb, brightness, w.state.brightness).value) &&
      r.0.log == w.log && r.0.state.client == w.state.client && r.0.state.timer == w.state.timer
    ensures ColourFrame(rgb, brightness, w.state.brightness).Some? ==>
      WroteOnly(env, ColourFrame(rgb, brightness, w.state.brightness).value, w, r.0, r.1) &&
      (r.1.Raised? ==> r.1.err.Transport?)
    ensures |w.log.writes| <= |r.0.log.writes| <= |w.log.writes| + 1
    ensures Valid(env.cfg, w.state) ==> Valid(env.cfg, r.0.state)
  {
    var s := w.state.(rgb := rgb);
    if brightness.None? && s.brightness.None? then
      (w.(state := s.(brightness := Some(255))), Raised(BrightnessIsNone))
    else
      var b := if brightness.Some? then brightness.value else s.brightness.value;
      if rgb.None? then (w.(state := s), Raised(ColourIsNone))
      else
        match ColourPacket(rgb.value, b)
        case None => (w.(state := s), Raised(ByteOutOfRange))
        case Some(p) => Send(env, w.(state := s), p)
  }

  function SetRgbBody(env: Env, rgb: Option<Rgb>, brightness: Option<int>): Attempt
  {
    w => SetRgbAttempt(env, w, rgb, brightness)
  }

  /** set_rgb_color under the retry wrapper. */
  function SetRgbColor(env: Env, w: World, rgb: Option<Rgb>, brightness: Option<int>): Run<World>
  {
    Retry(SetRgbBody(env, rgb, brightness), w)
  }

  /** What a set_rgb_color call does. The colour is stored; an early error
      is raised after one attempt without touching the link; otherwise every
      write is the colour frame, a return means the device acknowledged it,
      and a raise is a transport error after every write was refused. At
      most one write per attempt, and the session invariant is kept. */
  lemma SetRgbColorSpec(env: Env, w: World, rgb: Option<Rgb>, brightness: Option<int>)
    ensures var run := SetRgbColor(env, w, rgb, brightness); var s := run.state.state;
      s.rgb == rgb && s.isOn == w.state.isOn && s.effect == w.state.effect &&
      s.brightness == (if Effective(brightness, w.state.brightness).None? then Some(255) else w.state.brightness)
    ensures var run := SetRgbColor(env, w, rgb, brightness);
      ColourError(rgb, brightness, w.state.brightness).Some? ==>
        run.outcome == Raised(ColourError(rgb, brightness, w.state.brightness).value) &&
        |run.trace| == 1 && run.backoffs == 0 && run.state.log == w.log
    ensures var run := SetRgbColor(env, w, rgb, brightness);
      ColourFrame(rgb, brightness, w.state.brightness).Some? ==>
        WroteOnly(env, ColourFrame(rgb, brightness, w.state.brightness).value, w, run.state, run.outcome) &&
        (run.outcome.Raised? ==> run.outcome.err.Transport?)
    ensures var run := SetRgbColor(env, w, rgb, brightness);
      |w.log.writes| <= |run.state.log.writes| <= |w.log.writes| + |run.trace| <= |w.log.writes| + Attempts
    ensures Valid(env.cfg, w.state) ==> Valid(env.cfg, SetRgbColor(env, w, rgb, brightness).state.state)
  {
    var body := SetRgbBody(env, rgb, brightness);
    ColourErrorOrFrame(rgb, brightness, w.state.brightness);
    if ColourError(rgb, brightness, w.state.brightness).Some? {
      RetryUnfold(body, w, 0);
    } else {
      SetRgbColorWrites(env, w, rgb, brightness);
    }
    SetRgbColorCounts(env, w, rgb, brightness);
  }

  /** The link-reaching case of SetRgbColor. */
  lemma SetRgbColorWrites(env: Env, w: World, rgb: Option<Rgb>, brightness: Option<int>)
    requires ColourFrame(rgb, brightness, w.state.brightness).Some?
    ensures var run := Retry(SetRgbBody(env, rgb, brightness), w); var s := run.state.state;
      s.rgb == rgb && s.isOn == w.state.isOn && s.effect == w.state.effect && s.brightness == w.state.brightness &&
      WroteOnly(env, ColourFrame(rgb, brightness, w.state.brightness).value, w, run.state, run.outcome) &&
      (run.outcome.Raised? ==> run.outcome.err.Transport?)
  {
    var body := SetRgbBody(env, rgb, brightness);
    var p := ColourFrame(rgb, brightness, w.state.brightness).value;
    var inv := (x: World) =>
      x.state.brightness == w.state.brightness && x.state.isOn == w.state.isOn && x.state.effect == w.state.effect;
    forall x | inv(x)
      ensures WroteOnly(env, p, x, body(x).0, body(x).1) && (body(x).1.Raised? ==> inv(body(x).0))
    {
      assert ColourFrame(rgb, brightness, x.state.brightness) == Some(p);
    }
    var run := RetryWroteOnly(env, body, inv, p, w);
    var m :| inv(m) && body(m) == (run.state, run.outcome);
    assert ColourFrame(rgb, brightness, m.state.brightness) == Some(p);
  }

  /** The write count and the invariant across a SetRgbColor run. */
  lemma SetRgbColorCounts(env: Env, w: World, rgb: Option<Rgb>, brightness: Option<int>)
    ensures var run := Retry(SetRgbBody(env, rgb, brightness), w);
      |w.log.writes| <= |run.state.log.writes| <= |w.log.writes| + |run.trace| &&
      (Valid(env.cfg, w.state) ==> Valid(env.cfg, run.state.state))
  {
    var body := SetRgbBody(env, rgb, brightness);
    var count := (x: World) => |x.log.writes|;
    forall x
      ensures count(x) <= count(body(x).0) <= count(x) + 1
    {
    }
    RetryCountBound(body, count, 1, w, 0);
    var valid := (x: World) => Valid(env.cfg, x.state);
    if valid(w) {
      RetryPreserves(body, valid, w, 0);
    }
  }

  /** A wrapped operation whose attempts, from states satisfying `inv`, write
      nothing but `p`, succeed only on an acknowledged write, and keep `inv`
      when they raise: the whole run writes nothing but `p` the same way, and
      its result is that of an attempt made from a state satisfying `inv`. */
  lemma RetryWroteOnly(env: Env, body: Attempt, inv: World -> bool, p: Packet, w: World) returns (run: Run<World>)
    requires inv(w)
    requires forall x :: inv(x) ==> WroteOnly(env, p, x, body(x).0, body(x).1)
    requires forall x :: inv(x) && body(x).1.Raised? ==> inv(body(x).0)
    ensures run == Retry(body, w)
    ensures WroteOnly(env, p, w, run.state, run.outcome)
    ensures exists m :: inv(m) && body(m) == (run.state, run.outcome)
  {
    run := Retry(body, w);
    var rel := (x: World, y: World) => Sent(p, x, y) && Refused(env, x, y);
    forall x, y, z | rel(x, y) && rel(y, z)
      ensures rel(x, z)
    {
      WroteOnlyChain(env, p, x, y, z, Raised(Transport(Foreign)));
    }
    forall x | inv(x) && body(x).1.Raised?
      ensures inv(body(x).0) && rel(x, body(x).0)
    {
    }
    RetryLastAttempt(body, inv, rel, w, 0);
    var m :| inv(m) && rel(w, m) && body(m) == (run.state, run.outcome);
    WroteOnlyChain(env, p, w, m, run.state, run.outcome);
  }

  /** set_brightness_local: store the brightness, then set the stored colour
      at that brightness. */
  function SetBrightnessLocal(env: Env, w: World, value: int): Run<World>
  {
    SetRgbColor(env, w.(state := w.state.(brightness := Some(value))), w.state.rgb, Some(value))
  }

  /** The new brightness is stored whatever happens next; with no colour
      stored the call raises without touching the link; otherwise it writes
      only the stored colour's frame at the new brightness, or raises when
      that frame does not fit. */
  lemma SetBrightnessLocalSpec(env: Env, w: World, value: int)
    ensures var run := SetBrightnessLocal(env, w, value); var s := run.state.state;
      s.brightness == Some(value) && s.rgb == w.state.rgb && s.isOn == w.state.isOn && s.effect == w.state.effect
    ensures var run := SetBrightnessLocal(env, w, value);
      w.state.rgb.None? ==> run.outcome == Raised(ColourIsNone) && |run.trace| == 1 && run.state.log == w.log
    ensures var run := SetBrightnessLocal(env, w, value);
      w.state.rgb.Some? && ColourPacket(w.state.rgb.value, value).None? ==>
        run.outcome == Raised(ByteOutOfRange) && |run.trace| == 1 && run.state.log == w.log
    ensures var run := SetBrightnessLocal(env, w, value);
      w.state.rgb.Some? && ColourPacket(w.state.rgb.value, value).Some? ==>
        WroteOnly(env, ColourPacket(w.state.rgb.value, value).value, w, run.state, run.outcome) &&
        (run.outcome.Raised? ==> run.outcome.err.Transport?)
    ensures |SetBrightnessLocal(env, w, value).state.log.writes| <= |w.log.writes| + Attempts
    ensures Valid(env.cfg, w.state) ==> Valid(env.cfg, SetBrightnessLocal(env, w, value).state.state)
  {
    var stored := w.(state := w.state.(brightness := Some(value)));
    SetRgbColorSpec(env, stored, w.state.rgb, Some(value));
  }

  /** The fixed frame turn_on or turn_off writes. */
  function PowerCmd(on: bool): Packet
  {
    if on then TurnOnCmd else TurnOffCmd
  }

  /** One attempt of turn_on (on) or turn_off: write the power frame, and
      record the new power state only once the write returned. */
  function PowerAttempt(env: Env, w: World, on: bool): (r: (World, Outcome))
    ensures WroteOnly(env, PowerCmd(on), w, r.0, r.1) && (r.1.Raised? ==> r.1.err.Transport?)
    ensures r.0.state.isOn == (if r.1.Done? then Some(on) else w.state.isOn)
    ensures r.0.state.rgb == w.state.rgb && r.0.state.brightness == w.state.brightness && r.0.state.effect == w.state.effect
    ensures |w.log.writes| <= |r.0.log.writes| <= |w.log.writes| + 1
    ensures Valid(env.cfg, w.state) ==> Valid(env.cfg, r.0.state)
  {
    var (sent, o) := Send(env, w, PowerCmd(on));
    if o.Done? then (sent.(state := sent.state.(isOn := Some(on))), o) else (sent, o)
  }

  function PowerBody(env: Env, on: bool): Attempt
  {
    w => PowerAttempt(env, w, on)
  }

  /** turn_on (on) or turn_off under the retry wrapper. */
  function SetPower(env: Env, w: World, on: bool): Run<World>
  {
    Retry(PowerBody(env, on), w)
  }

  function TurnOn(env: Env, w: World): Run<World>
  {
    SetPower(env, w, true)
  }

  function TurnOff(env: Env, w: World): Run<World>
  {
    SetPower(env, w, false)
  }

  /** A power call writes only its power frame. The power state changes, to
      on or off as asked, exactly when the call returns; a raise is a
      transport error after every write was refused and leaves the recorded
      power state as it was. Colour, brightness and effect are untouched. */
  lemma SetPowerSpec(env: Env, w: World, on: bool)
    ensures var run := SetPower(env, w, on); var s := run.state.state;
      WroteOnly(env, PowerCmd(on), w, run.state, run.outcome) &&
      (run.outcome.Raised? ==> run.outcome.err.Transport?) &&
      s.isOn == (if run.outcome.Done? then Some(on) else w.state.isOn) &&
      s.rgb == w.state.rgb && s.brightness == w.state.brightness && s.effect == w.state.effect
    ensures var run := SetPower(env, w, on);
      |run.state.log.writes| <= |w.log.writes| + |run.trace| <= |w.log.writes| + Attempts
    ensures Valid(env.cfg, w.state) ==> Valid(env.cfg, SetPower(env, w, on).state.state)
  {
    var body := PowerBody(env, on);
    var run := SetPower(env, w, on);
    assert WroteOnly(env, PowerCmd(on), w, run.state, run.outcome) &&
      (run.outcome.Raised? ==> run.outcome.err.Transport?) &&
      run.state.state.isOn == (if run.outcome.Done? then Some(on) else w.state.isOn) &&
      run.state.state.rgb == w.state.rgb && run.state.state.brightness == w.state.brightness &&
      run.state.state.effect == w.state.effect
    by {
      var inv := (x: World) =>
        x.state.isOn == w.state.isOn && x.state.rgb == w.state.rgb &&
        x.state.brightness == w.state.brightness && x.state.effect == w.state.effect;
      var r := RetryWroteOnly(env, body, inv, PowerCmd(on), w);
      var m :| inv(m) && body(m) == (r.state, r.outcome);
    }
    assert |run.state.log.writes| <= |w.log.writes| + |run.trace| by {
      RetryCountBound(body, (x: World) => |x.log.writes|, 1, w, 0);
    }
    if Valid(env.cfg, w.state) {
      RetryPreserves(body, (x: World) => Valid(env.cfg, x.state), w, 0);
    }
  }

  /** The colour set_effect("None") falls back to: the stored one, else white. */
  function ColourOrWhite(rgb: Option<Rgb>): Rgb
  {
    if rgb.Some? then rgb.value else Rgb(255, 255, 255)
  }

  /** One attempt of set_effect. An unknown name is ignored. "None" clears
      the effect and sets the stored colour, or white, through a nested
      set_rgb_color call with its own retries. Any other name stores the
      effect and writes its effect frame. */
  function SetEffectAttempt(env: Env, w: World, name: string): (r: (World, Outcome))
    ensures !KnownEffect(env.cfg.effects, name) ==> r == (w, Done)
    ensures name == "None" ==>
      var c := ColourOrWhite(w.state.rgb);
      r.0.state.effect == None && r.0.state.rgb == Some(c) && r.0.state.isOn == w.state.isOn &&
      r.0.state.brightness == (if w.state.brightness.None? then Some(255) else w.state.brightness) &&
      (ColourError(Some(c), None, w.state.brightness).Some? ==>
        r.1 == Raised(ColourError(Some(c), None, w.state.brightness).value) && r.0.log == w.log) &&
      (ColourFrame(Some(c), None, w.state.brightness).Some? ==>
        WroteOnly(env, ColourFrame(Some(c), None, w.state.brightness).value, w, r.0, r.1) &&
        (r.1.Raised? ==> r.1.err.Transport?))
    ensures name != "None" && name in env.cfg.effects ==>
      WroteOnly(env, EffectPacket(env.cfg.effects[name]), w, r.0, r.1) && (r.1.Raised? ==> r.1.err.Transport?) &&
      r.0.state.effect == Some(name) && r.0.state.rgb == w.state.rgb &&
      r.0.state.brightness == w.state.brightness && r.0.state.isOn == w.state.isOn
    ensures name == "None" ==>
      var run := SetRgbColor(env, w.(state := w.state.(effect := None)), Some(ColourOrWhite(w.state.rgb)), None);
      r == (run.state, run.outcome)
    ensures |w.log.writes| <= |r.0.log.writes| <= |w.log.writes| + Attempts
    ensures Valid(env.cfg, w.state) ==> Valid(env.cfg, r.0.state)
  {
    if !KnownEffect(env.cfg.effects, name) then (w, Done)
    else if name == "None" then
      var cleared := w.(state := w.state.(effect := None));
      var c := ColourOrWhite(w.state.rgb);
      SetRgbColorSpec(env, cleared, Some(c), None);
      var run := SetRgbColor(env, cleared, Some(c), None);
      (run.state, run.outcome)
    else
      Send(env, w.(state := w.state.(effect := Some(name))), EffectPacket(env.cfg.effects[name]))
  }

  function SetEffectBody(env: Env, name: string): Attempt
  {
    w => SetEffectAttempt(env, w, name)
  }

  /** set_effect under the retry wrapper. */
  function SetEffect(env: Env, w: World, name: string): Run<World>
  {
    Retry(SetEffectBody(env, name), w)
  }

  /** An unknown effect name changes nothing and returns. An effect from the
      table is stored and only its frame is written. "None" clears the effect
      and stores the fallback colour; it raises at once when that colour
      cannot be written, and otherwise writes only that colour's frame. Each
      attempt of the outer wrapper runs a whole inner set_rgb_color, so one
      call can write up to nine frames. */
  lemma SetEffectSpec(env: Env, w: World, name: string)
    ensures !KnownEffect(env.cfg.effects, name) ==> SetEffect(env, w, name) == Run(w, Done, [Done], 0)
    ensures var run := SetEffect(env, w, name); var s := run.state.state;
      name != "None" && name in env.cfg.effects ==>
        WroteOnly(env, EffectPacket(env.cfg.effects[name]), w, run.state, run.outcome) &&
        (run.outcome.Raised? ==> run.outcome.err.Transport?) &&
        s.effect == Some(name) && s.rgb == w.state.rgb && s.brightness == w.state.brightness && s.isOn == w.state.isOn
    ensures var run := SetEffect(env, w, name); var c := ColourOrWhite(w.state.rgb);
      name == "None" && ColourError(Some(c), None, w.state.brightness).Some? ==>
        run.outcome == Raised(ColourError(Some(c), None, w.state.brightness).value) &&
        |run.trace| == 1 && run.state.log == w.log &&
        run.state.state.effect == None && run.state.state.rgb == Some(c)
    ensures var run := SetEffect(env, w, name); var s := run.state.state; var c := ColourOrWhite(w.state.rgb);
      name == "None" && ColourFrame(Some(c), None, w.state.brightness).Some? ==>
        WroteOnly(env, ColourFrame(Some(c), None, w.state.brightness).value, w, run.state, run.outcome) &&
        (run.outcome.Raised? ==> run.outcome.err.Transport?) &&
        s.effect == None && s.rgb == Some(c) && s.brightness == w.state.brightness && s.isOn == w.state.isOn
    ensures var run := SetEffect(env, w, name);
      |run.state.log.writes| <= |w.log.writes| + Attempts * |run.trace| <= |w.log.writes| + Attempts * Attempts
    ensures Valid(env.cfg, w.state) ==> Valid(env.cfg, SetEffect(env, w, name).state.state)
  {
    var body := SetEffectBody(env, name);
    var c := ColourOrWhite(w.state.rgb);
    if !KnownEffect(env.cfg.effects, name) {
      RetryUnfold(body, w, 0);
    } else if name != "None" {
      SetEffectNamedWrites(env, w, name);
    } else {
      ColourErrorOrFrame(Some(c), None, w.state.brightness);
      if ColourError(Some(c), None, w.state.brightness).Some? {
        RetryUnfold(body, w, 0);
      } else {
        SetEffectClearWrites(env, w);
      }
    }
    SetEffectCounts(env, w, name);
  }

  /** The case of set_effect with a name from the table. */
  lemma SetEffectNamedWrites(env: Env, w: World, name: string)
    requires name != "None" && name in env.cfg.effects
    ensures var run := SetEffect(env, w, name); var s := run.state.state;
      WroteOnly(env, EffectPacket(env.cfg.effects[name]), w, run.state, run.outcome) &&
      (run.outcome.Raised? ==> run.outcome.err.Transport?) &&
      s.effect == Some(name) && s.rgb == w.state.rgb && s.brightness == w.state.brightness && s.isOn == w.state.isOn
  {
    var body := SetEffectBody(env, name);
    var inv := (x: World) =>
      x.state.isOn == w.state.isOn && x.state.rgb == w.state.rgb && x.state.brightness == w.state.brightness;
    var run := RetryWroteOnly(env, body, inv, EffectPacket(env.cfg.effects[name]), w);
    var m :| inv(m) && body(m) == (run.state, run.outcome);
  }

  /** The write count and the invariant across a set_effect run. */
  lemma SetEffectCounts(env: Env, w: World, name: string)
    ensures var run := SetEffect(env, w, name);
      |run.state.log.writes| <= |w.log.writes| + Attempts * |run.trace| <= |w.log.writes| + Attempts * Attempts
    ensures Valid(env.cfg, w.state) ==> Valid(env.cfg, SetEffect(env, w, name).state.state)
  {
    var body := SetEffectBody(env, name);
    var count := (x: World) => |x.log.writes|;
    RetryCountBound(body, count, Attempts, w, 0);
    var valid := (x: World) => Valid(env.cfg, x.state);
    if valid(w) {
      RetryPreserves(body, valid, w, 0);
    }
  }

  /** The link-reaching case of set_effect("None"). */
  lemma SetEffectClearWrites(env: Env, w: World)
    requires ColourFrame(Some(ColourOrWhite(w.state.rgb)), None, w.state.brightness).Some?
    ensures var run := SetEffect(env, w, "None"); var s := run.state.state; var c := ColourOrWhite(w.state.rgb);
      WroteOnly(env, ColourFrame(Some(c), None, w.state.brightness).value, w, run.state, run.outcome) &&
      (run.outcome.Raised? ==> run.outcome.err.Transport?) &&
      s.effect == None && s.rgb == Some(c) && s.brightness == w.state.brightness && s.isOn == w.state.isOn
  {
    var body := SetEffectBody(env, "None");
    var c := ColourOrWhite(w.state.rgb);
    var p := ColourFrame(Some(c), None, w.state.brightness).value;
    var inv := (x: World) =>
      x.state.isOn == w.state.isOn && x.state.brightness == w.state.brightness && ColourOrWhite(x.state.rgb) == c;
    forall x | inv(x)
      ensures WroteOnly(env, p, x, body(x).0, body(x).1) && (body(x).1.Raised? ==> inv(body(x).0))
    {
      assert ColourFrame(Some(ColourOrWhite(x.state.rgb)), None, x.state.brightness) == Some(p);
    }
    var run := RetryWroteOnly(env, body, inv, p, w);
    var m :| inv(m) && body(m) == (run.state, run.outcome);
    assert ColourFrame(Some(ColourOrWhite(m.state.rgb)), None, m.state.brightness) == Some(p);
  }

  /** At full stored brightness, clearing the effect resends the stored
      colour's frame unscaled. */
  lemma ClearEffectAtFullBrightness(env: Env, w: World, c: Rgb)
    requires ValidRgb(c) && w.state.rgb == Some(c) && w.state.brightness == Some(255)
    ensures var run := SetEffect(env, w, "None");
      WroteOnly(env, Encode(Colour(c.r, c.g, c.b)), w, run.state, run.outcome) &&
      run.state.state.effect == None && run.state.state.rgb == Some(c)
  {
    assert ColourFrame(Some(ColourOrWhite(w.state.rgb)), None, w.state.brightness) == Some(Encode(Colour(c.r, c.g, c.b)));
    SetEffectSpec(env, w, "None");
  }

  /** With every write refused by a BleakError that keeps the link, a
      full-brightness colour call over a live link, or one the stack grants,
      makes three attempts of one write each and raises. */
  lemma RefusedColourThreeWrites(env: Env, w: World, c: Rgb)
    requires ValidRgb(c) && w.state.brightness == Some(255)
    requires forall i :: env.stack.write(i) == WriteFailed(Bleak, false)
    requires w.state.client.Connected? || env.stack.link(w.log.connects).Linked?
    ensures var run := SetRgbColor(env, w, Some(c), None);
      run.outcome == Raised(Transport(Bleak)) && |run.trace| == 3 &&
      |run.state.log.writes| == |w.log.writes| + 3 &&
      run.state.state.client.Connected? && run.state.state.brightness == Some(255) &&
      run.state.state.rgb == Some(c)
  {
    var body := SetRgbBody(env, Some(c), None);
    var a1 := RefusedColourAttempt(env, w, c);
    var a2 := RefusedColourAttempt(env, a1.0, c);
    var a3 := RefusedColourAttempt(env, a2.0, c);
    RetryExhausted(body, w);
  }

  /** One attempt of the colour call in RefusedColourThreeWrites. */
  lemma RefusedColourAttempt(env: Env, w: World, c: Rgb) returns (r: (World, Outcome))
    requires ValidRgb(c) && w.state.brightness == Some(255)
    requires forall i :: env.stack.write(i) == WriteFailed(Bleak, false)
    requires w.state.client.Connected? || env.stack.link(w.log.connects).Linked?
    ensures r == SetRgbAttempt(env, w, Some(c), None)
    ensures r.1 == Raised(Transport(Bleak)) && |r.0.log.writes| == |w.log.writes| + 1
    ensures r.0.state.client.Connected? && r.0.state.brightness == Some(255) && r.0.state.rgb == Some(c)
  {
    assert ColourFrame(Some(c), None, Some(255)) == Some(Encode(Colour(c.r, c.g, c.b)));
    r := SetRgbAttempt(env, w, Some(c), None);
    var sent := Send(env, w.(state := w.state.(rgb := Some(c))), Encode(Colour(c.r, c.g, c.b)));
    assert r == sent;
    assert |sent.0.log.writes| == |w.log.writes| + 1;
  }

  /** Clearing the effect nests the retries: with every write refused by a
      BleakError that keeps the link, set_effect("None") on a fresh session
      makes three outer attempts, each a whole set_rgb_color of three
      attempts, so nine colour frames are written before it raises. */
  lemma ClearEffectNestsRetries(env: Env, services: Services)
    requires env.stack.link(0) == Linked(services)
    requires forall i :: env.stack.write(i) == WriteFailed(Bleak, false)
    ensures var run := SetEffect(env, Start, "None");
      run.outcome == Raised(Transport(Bleak)) && |run.trace| == 3 && |run.state.log.writes| == 9
  {
    var body := SetEffectBody(env, "None");
    var e1 := RefusedClearAttempt(env, Start);
    var e2 := RefusedClearAttempt(env, e1.0);
    var e3 := RefusedClearAttempt(env, e2.0);
    RetryExhausted(body, Start);
  }

  /** One outer attempt in ClearEffectNestsRetries, from a state whose
      fallback colour is white. */
  lemma RefusedClearAttempt(env: Env, w: World) returns (r: (World, Outcome))
    requires w.state.brightness == Some(255) && w.state.effect == None
    requires w.state.rgb == None || w.state.rgb == Some(Rgb(255, 255, 255))
    requires forall i :: env.stack.write(i) == WriteFailed(Bleak, false)
    requires w.state.client.Connected? || env.stack.link(w.log.connects).Linked?
    ensures r == SetEffectAttempt(env, w, "None")
    ensures r.1 == Raised(Transport(Bleak)) && |r.0.log.writes| == |w.log.writes| + 3
    ensures r.0.state.client.Connected? && r.0.state.brightness == Some(255) && r.0.state.effect == None
    ensures r.0.state.rgb == Some(Rgb(255, 255, 255))
  {
    var white := Rgb(255, 255, 255);
    assert ColourOrWhite(w.state.rgb) == white;
    assert w.(state := w.state.(effect := None)) == w;
    RefusedColourThreeWrites(env, w, white);
    r := SetEffectAttempt(env, w, "None");
  }

  /** The AUTO effect, code 255, is the effect frame with every parameter
      byte set. */
  lemma AutoEffectFrame(effects: EffectTable)
    ensures EffectPacket(effects["AUTO"]) == [0x7b, 0xff, 0x03, 0xff, 0xff, 0xff, 0xff, 0xff, 0xbf]
  {
  }

  /** update under the retry wrapper: one attempt that does nothing. */
  function Update(w: World): (run: Run<World>)
    ensures run == Run(w, Done, [Done], 0)
  {
    Retry((x: World) => (x, Done), w)
  }
}

=== FILE: machine.dfy ===
/** A session driven by a sequence of events: the host's calls, the idle
    timer firing and the stack reporting the link lost. The session invariant
    holds in every state reachable from a freshly constructed session. */
module Machine {
  import opened Base
  import opened Commands
  import opened RetryPolicy
  import opened Session
  import opened Control

  /** What can happen to a session. */
  datatype Event =
    | TurnOnCall
    | TurnOffCall
    | RgbCall(rgb: Option<Rgb>, brightness: Option<int>)
    | BrightnessCall(value: int)
    | EffectCall(name: string)
    | UpdateCall
    | StopCall
    | TimerExpired
    | LinkDropped

  function RunResult(run: Run<World>): (World, Outcome)
  {
    (run.state, run.outcome)
  }

  /** The effect of one event, and what the call returned or raised. */
  function Apply(env: Env, w: World, e: Event): (r: (World, Outcome))
    ensures Valid(env.cfg, w.state) ==> Valid(env.cfg, r.0.state)
    ensures Valid(env.cfg, w.state) ==> r.1 != Raised(BrightnessIsNone)
  {
    match e
    case TurnOnCall =>
      SetPowerSpec(env, w, true);
      RunResult(TurnOn(env, w))
    case TurnOffCall =>
      SetPowerSpec(env, w, false);
      RunResult(TurnOff(env, w))
    case RgbCall(rgb, brightness) =>
      SetRgbColorSpec(env, w, rgb, brightness);
      ColourErrorOrFrame(rgb, brightness, w.state.brightness);
      RunResult(SetRgbColor(env, w, rgb, brightness))
    case BrightnessCall(value) =>
      SetBrightnessLocalSpec(env, w, value);
      RunResult(SetBrightnessLocal(env, w, value))
    case EffectCall(name) =>
      SetEffectSpec(env, w, name);
      ColourErrorOrFrame(Some(ColourOrWhite(w.state.rgb)), None, w.state.brightness);
      RunResult(SetEffect(env, w, name))
    case UpdateCall => RunResult(Update(w))
    case StopCall => Stop(env, w)
    case TimerExpired => TimerFires(env, w)
    case LinkDropped => (LinkLost(w), Done)
  }

  /** The world after a sequence of events; what each call returned is not
      kept, as the host does not look at it either. */
  function Exec(env: Env, w: World, events: seq<Event>): World
    decreases |events|
  {
    if events == [] then w else Exec(env, Apply(env, w, events[0]).0, events[1..])
  }

  lemma StartValid(cfg: Config)
    ensures Valid(cfg, Start.state)
    ensures Start.state.brightness == Some(255)
  {
  }

  /** Every sequence of events from a valid state ends in a valid state. */
  lemma {:induction false} ExecKeepsValid(env: Env, w: World, events: seq<Event>)
    requires Valid(env.cfg, w.state)
    ensures Valid(env.cfg, Exec(env, w, events).state)
    decreases |events|
  {
    if events != [] {
      ExecKeepsValid(env, Apply(env, w, events[0]).0, events[1..]);
    }
  }

  /** In every reachable state a brightness is stored, so no call raises the
      missing-brightness error; without an idle delay no timer is ever
      pending; and a live link's disconnect counts as unexpected. */
  lemma Reachable(env: Env, events: seq<Event>, e: Event)
    ensures var w := Exec(env, Start, events);
      w.state.brightness.Some? &&
      Apply(env, w, e).1 != Raised(BrightnessIsNone) &&
      (!AutoDisconnects(env.cfg.delay) ==> w.state.timer == NoTimer) &&
      (w.state.client.Connected? ==> !w.state.expectedDisconnect) &&
      (w.state.client.NoClient? ==> w.state.writeChar.None?)
  {
    StartValid(env.cfg);
    ExecKeepsValid(env, Start, events);
  }

  /** Changing the brightness before any colour was set raises the
      missing-colour error without contacting the device, yet the new
      brightness is kept. */
  lemma BrightnessBeforeColour(env: Env, value: int)
    ensures var r := Apply(env, Start, BrightnessCall(value));
      r.1 == Raised(ColourIsNone) && r.0.log == Start.log && r.0.state.brightness == Some(value)
  {
    SetBrightnessLocalSpec(env, Start, value);
  }

  /** A busy adapter is retried after a back-off: when the first write is
      refused with a DBus error and the second acknowledged, a full-brightness
      colour call writes the colour frame twice over one link and returns. */
  lemma BusyAdapterRetried(env: Env, c: Rgb, services: Services)
    requires ValidRgb(c)
    requires env.stack.link(0) == Linked(services)
    requires env.stack.write(0) == WriteFailed(DBus, false) && env.stack.write(1) == Written
    ensures var run := SetRgbColor(env, Start, Some(c), None); var p := Encode(Colour(c.r, c.g, c.b));
      run.outcome == Done && run.trace == [Raised(Transport(DBus)), Done] && run.backoffs == 1 &&
      run.state.log == Log(1, [p, p], 0)
  {
    var body := SetRgbBody(env, Some(c), None);
    var p := Encode(Colour(c.r, c.g, c.b));
    assert ColourFrame(Some(c), None, Some(255)) == Some(p);
    var first := body(Start);
    assert first.1 == Raised(Transport(DBus)) && first.0.log == Log(1, [p], 0) by {
      var linked := EnsureConnected(env, Start.(state := Start.state.(rgb := Some(c))));
      assert linked.1 == Done && linked.0.log == Log(1, [], 0);
    }
    assert first.0.state.client.Connected? && first.0.state.brightness == Some(255);
    var second := body(first.0);
    assert second.1 == Done && second.0.log == Log(1, [p, p], 0) by {
      assert ColourFrame(Some(c), None, first.0.state.brightness) == Some(p);
    }
    RetryUnfold(body, Start, 0);
    RetryUnfold(body, first.0, 1);
  }

  /** A refused write that takes the link down is retried over a new link:
      turn_on reconnects on its second attempt, writes the on frame twice
      and returns with the lamp on. */
  lemma LinkLostRetriedOverNewLink(env: Env, services: Services)
    requires env.stack.link(0) == Linked(services) && env.stack.link(1) == Linked(services)
    requires env.stack.write(0) == WriteFailed(Bleak, true) && env.stack.write(1) == Written
    ensures var run := TurnOn(env, Start);
      run.outcome == Done && run.trace == [Raised(Transport(Bleak)), Done] && run.backoffs == 0 &&
      run.state.log == Log(2, [TurnOnCmd, TurnOnCmd], 0) &&
      run.state.state.client == Connected(services) && run.state.state.isOn == Some(true)
  {
    var body := PowerBody(env, true);
    var first := body(Start);
    assert first.1 == Raised(Transport(Bleak)) && first.0.log == Log(1, [TurnOnCmd], 0) &&
      first.0.state.client == Dropped(services);
    var second := body(first.0);
    assert second.1 == Done && second.0.log == Log(2, [TurnOnCmd, TurnOnCmd], 0) &&
      second.0.state.client == Connected(services) && second.0.state.isOn == Some(true);
    RetryUnfold(body, Start, 0);
    RetryUnfold(body, first.0, 1);
  }

  /** A device the stack cannot find is not retried: turn_on raises after
      one connect attempt, writes nothing and leaves the power state unknown. */
  lemma NotFoundNotRetried(env: Env)
    requires env.stack.link(0) == LinkFailed(NotFound)
    ensures var run := TurnOn(env, Start);
      run.outcome == Raised(Transport(NotFound)) && |run.trace| == 1 &&
      run.state.log == Log(1, [], 0) && run.state.state.isOn == None
  {
    RetryUnfold(PowerBody(env, true), Start, 0);
  }

  /** With an idle delay configured, a successful turn_on leaves a timer
      pending, and when it fires the link is closed and forgotten while the
      power state is kept. */
  lemma IdleTimerCloses(env: Env, services: Services)
    requires AutoDisconnects(env.cfg.delay)
    requires env.stack.link(0) == Linked(services) && env.stack.write(0) == Written && env.stack.close(0) == Ack
    ensures var on := TurnOn(env, Start).state;
      on.state.timer == Pending && on.state.client == Connected(services) && on.state.isOn == Some(true)
    ensures var w := Exec(env, Start, [TurnOnCall, TimerExpired]);
      w.state.client == NoClient && w.state.timer == NoTimer && w.state.isOn == Some(true) &&
      w.log == Log(1, [TurnOnCmd], 1)
  {
    RetryUnfold(PowerBody(env, true), Start, 0);
    var on := TurnOn(env, Start).state;
    assert Exec(env, Start, [TurnOnCall, TimerExpired]) == Exec(env, on, [TimerExpired]);
    assert Exec(env, on, [TimerExpired]) == Exec(env, TimerFires(env, on).0, []);
  }
}

=== FILE: retry.dfy ===
/** The retry wrapper that guards every operation touching the radio link:
    at most three attempts, with the decision after each failure taken from
    the failure's kind alone. */
module RetryPolicy {
  import opened Base

  /** Attempts per wrapped call. */
  const Attempts: nat := 3
  /** Index of the last attempt (attempts are counted from 0). */
  const LastAttempt: nat := Attempts - 1

  /** What the wrapper does after an attempt raised. */
  datatype Decision = Reraise | BackOffThenRetry | RetryNow

  /** The errors the wrapper catches and may retry: BlueZ busy signals, other
      BLE errors and the connector's other retryable errors. Not-found is
      caught only to be re-raised; anything else is never caught. */
  predicate Retryable(e: Error)
  {
    e == Transport(DBus) || e == Transport(Bleak) || e == Transport(Transient)
  }

  predicate RetriedFailure(o: Outcome)
  {
    o.Raised? && Retryable(o.err)
  }

  /** The decision after attempt `attempt` raised `e`. */
  function Classify(e: Error, attempt: nat): (d: Decision)
    ensures d != Reraise <==> Retryable(e) && attempt < LastAttempt
    ensures d == BackOffThenRetry <==> e == Transport(DBus) && attempt < LastAttempt
    ensures e == Transport(NotFound) ==> d == Reraise
  {
    match e
    case Transport(NotFound) => Reraise
    case Transport(DBus) => if attempt >= LastAttempt then Reraise else BackOffThenRetry
    case Transport(Bleak) => if attempt >= LastAttempt then Reraise else RetryNow
    case Transport(Transient) => if attempt >= LastAttempt then Reraise else RetryNow
    case _ => Reraise
  }

  /** Number of back-offs a run of failed attempts incurs. */
  function Pauses(failed: seq<Outcome>): nat
  {
    if failed == [] then 0
    else (if failed[0] == Raised(Transport(DBus)) then 1 else 0) + Pauses(failed[1..])
  }

  /** The wrapper seen from outside: what the call returns or raises, how many
      attempts it took and how many back-off sleeps it made. */
  datatype Verdict = Verdict(outcome: Outcome, attempts: nat, backoffs: nat)

  /** The policy over a script of the outcomes attempts `attempt`, `attempt`+1,
      ... would have; entries after the decisive one are never looked at. */
  function JudgeFrom(script: seq<Outcome>, attempt: nat): (v: Verdict)
    requires attempt < Attempts && |script| == Attempts - attempt
    ensures 1 <= v.attempts <= |script|
    ensures v.outcome == script[v.attempts - 1]
    ensures forall i :: 0 <= i < v.attempts - 1 ==> RetriedFailure(script[i])
    ensures v.attempts < |script| ==> !RetriedFailure(v.outcome)
    ensures v.backoffs == Pauses(script[..v.attempts - 1])
    decreases Attempts - attempt
  {
    match script[0]
    case Done => Verdict(Done, 1, 0)
    case Raised(e) =>
      match Classify(e, attempt)
      case Reraise => Verdict(script[0], 1, 0)
      case BackOffThenRetry =>
        var rest := JudgeFrom(script[1..], attempt + 1);
        assert script[..rest.attempts] == [script[0]] + script[1..][..rest.attempts - 1];
        Verdict(rest.outcome, rest.attempts + 1, rest.backoffs + 1)
      case RetryNow =>
        var rest := JudgeFrom(script[1..], attempt + 1);
        assert script[..rest.attempts] == [script[0]] + script[1..][..rest.attempts - 1];
        Verdict(rest.outcome, rest.attempts + 1, rest.backoffs)
  }

  /** The whole policy, one scripted outcome per possible attempt. */
  function Judge(script: seq<Outcome>): (v: Verdict)
    requires |script| == Attempts
    ensures 1 <= v.attempts <= Attempts
  {
    JudgeFrom(script, 0)
  }

  /** What the wrapper promises, stated over scripts: the first success wins;
      not-found and foreign errors end the call after the attempt that raised
      them; a retryable error on the last attempt is re-raised; otherwise the
      next attempt follows, after one back-off exactly for a DBus error. */
  lemma JudgeCases(script: seq<Outcome>)
    requires |script| == Attempts
    ensures script[0] == Done ==> Judge(script) == Verdict(Done, 1, 0)
    ensures script[0].Raised? && !Retryable(script[0].err) ==> Judge(script) == Verdict(script[0], 1, 0)
    ensures script[0] == Raised(Transport(DBus)) && script[1] == Done ==> Judge(script) == Verdict(Done, 2, 1)
    ensures script[0] == Raised(Transport(Bleak)) && script[1] == Done ==> Judge(script) == Verdict(Done, 2, 0)
    ensures RetriedFailure(script[0]) && RetriedFailure(script[1]) ==>
      Judge(script).attempts == 3 && Judge(script).outcome == script[2]
  {
    var v := Judge(script);
    if script[0] == Raised(Transport(DBus)) && script[1] == Done {
      assert !RetriedFailure(script[1]);
      assert script[..1] == [script[0]];
      assert Pauses(script[..1]) == 1 + Pauses([]);
    }
    if script[0] == Raised(Transport(Bleak)) && script[1] == Done {
      assert !RetriedFailure(script[1]);
      assert script[..1] == [script[0]];
      assert Pauses(script[..1]) == 0 + Pauses([]);
    }
  }

  /** One run of a wrapped operation over states of type S: the final state,
      what the call returned or raised, the outcome of every attempt made, and
      the number of back-offs. */
  datatype Run<S> = Run(state: S, outcome: Outcome, trace: seq<Outcome>, backoffs: nat)

  /** The state after `i` attempts of `body` from `s`, each attempt starting
      where the previous one ended. */
  ghost function After<S>(body: S -> (S, Outcome), s: S, i: nat): S
  {
    if i == 0 then s else body(After(body, s, i - 1)).0
  }

  /** The run is what `body` produces when applied to its own output again
      and again from `s`: the i-th entry of the trace is the outcome of the
      attempt made after i others, and the run ends in the state the last
      attempt left. */
  ghost predicate Replays<S>(body: S -> (S, Outcome), s: S, run: Run<S>)
  {
    && 1 <= |run.trace|
    && (forall i :: 0 <= i < |run.trace| ==> body(After(body, s, i)).1 == run.trace[i])
    && run.state == After(body, s, |run.trace|)
  }

  /** The wrapper applied to an attempt `body` that maps a state to the next
      state and the attempt's outcome, starting at attempt number `attempt`. */
  function RetryFrom<S>(body: S -> (S, Outcome), s: S, attempt: nat): (run: Run<S>)
    requires attempt < Attempts
    ensures 1 <= |run.trace| <= Attempts - attempt
    ensures run.outcome == run.trace[|run.trace| - 1]
    ensures forall i :: 0 <= i < |run.trace| - 1 ==> RetriedFailure(run.trace[i])
    ensures |run.trace| < Attempts - attempt ==> !RetriedFailure(run.outcome)
    ensures run.backoffs == Pauses(run.trace[..|run.trace| - 1])
    decreases Attempts - attempt
  {
    var (next, o) := body(s);
    match o
    case Done => Run(next, o, [o], 0)
    case Raised(e) =>
      match Classify(e, attempt)
      case Reraise => Run(next, o, [o], 0)
      case BackOffThenRetry =>
        var rest := RetryFrom(body, next, attempt + 1);
        assert ([o] + rest.trace)[..|rest.trace|] == [o] + rest.trace[..|rest.trace| - 1];
        Run(rest.state, rest.outcome, [o] + rest.trace, rest.backoffs + 1)
      case RetryNow =>
        var rest := RetryFrom(body, next, attempt + 1);
        assert ([o] + rest.trace)[..|rest.trace|] == [o] + rest.trace[..|rest.trace| - 1];
        Run(rest.state, rest.outcome, [o] + rest.trace, rest.backoffs)
  }

  /** Every run of the wrapper replays its attempt body from the state it
      started in: the outcomes in the trace, the intermediate states and the
      final state are exactly what the attempts produced. */
  lemma {:induction false} RetryReplays<S>(body: S -> (S, Outcome), s: S, attempt: nat)
    requires attempt < Attempts
    ensures Replays(body, s, RetryFrom(body, s, attempt))
    decreases Attempts - attempt
  {
    var next, o := body(s).0, body(s).1;
    var run := RetryFrom(body, s, attempt);
    RetryUnfold(body, s, attempt);
    if o.Raised? && Classify(o.err, attempt) != Reraise {
      var rest := RetryFrom(body, next, attempt + 1);
      assert run == Run(rest.state, rest.outcome, [o] + rest.trace, run.backoffs);
      RetryReplays(body, next, attempt + 1);
      ReplaysStep(body, s, rest, run.backoffs);
    } else {
      assert run == Run(next, o, [o], 0);
    }
  }

  /** A replayed run preceded by one more attempt from `s` is a replayed
      run from `s`. */
  lemma ReplaysStep<S>(body: S -> (S, Outcome), s: S, rest: Run<S>, backoffs: nat)
    requires Replays(body, body(s).0, rest)
    ensures Replays(body, s, Run(rest.state, rest.outcome, [body(s).1] + rest.trace, backoffs))
  {
    var run := Run(rest.state, rest.outcome, [body(s).1] + rest.trace, backoffs);
    forall i | 0 <= i < |run.trace|
      ensures body(After(body, s, i)).1 == run.trace[i]
    {
      if i > 0 {
        AfterShift(body, s, i - 1);
      }
    }
    AfterShift(body, s, |rest.trace|);
  }

  /** Attempts i + 1 from `s` end where i attempts from the first attempt's
      result end. */
  lemma {:induction false} AfterShift<S>(body: S -> (S, Outcome), s: S, i: nat)
    ensures After(body, s, i + 1) == After(body, body(s).0, i)
  {
    if i > 0 {
      AfterShift(body, s, i - 1);
    }
  }

  /** The wrapper from the first attempt on. */
  function Retry<S>(body: S -> (S, Outcome), s: S): (run: Run<S>)
    ensures 1 <= |run.trace| <= Attempts
  {
    RetryFrom(body, s, 0)
  }

  /** The stateful wrapper follows the policy: judged on the outcomes its
      attempts actually produced, padded with anything, the policy gives the
      same result, attempt count and back-off count. */
  lemma {:induction false} RetryFollowsPolicy<S>(body: S -> (S, Outcome), s: S, attempt: nat, pad: seq<Outcome>)
    requires attempt < Attempts
    requires |RetryFrom(body, s, attempt).trace| + |pad| == Attempts - attempt
    ensures var run := RetryFrom(body, s, attempt);
      JudgeFrom(run.trace + pad, attempt) == Verdict(run.outcome, |run.trace|, run.backoffs)
    decreases Attempts - attempt
  {
    var next, o := body(s).0, body(s).1;
    RetryUnfold(body, s, attempt);
    if o.Raised? && Classify(o.err, attempt) != Reraise {
      RetryFollowsPolicy(body, next, attempt + 1, pad);
      PolicyStep(body, s, attempt, pad);
    } else {
      JudgeUnfold([o] + pad, attempt);
    }
  }

  /** The inductive step of RetryFollowsPolicy: agreement after a retried
      first attempt carries over to the run that made it. */
  lemma PolicyStep<S>(body: S -> (S, Outcome), s: S, attempt: nat, pad: seq<Outcome>)
    requires attempt < Attempts
    requires body(s).1.Raised? && Classify(body(s).1.err, attempt) != Reraise
    requires |RetryFrom(body, s, attempt).trace| + |pad| == Attempts - attempt
    requires var rest := RetryFrom(body, body(s).0, attempt + 1);
      |rest.trace| + |pad| == Attempts - (attempt + 1) &&
      JudgeFrom(rest.trace + pad, attempt + 1) == Verdict(rest.outcome, |rest.trace|, rest.backoffs)
    ensures var run := RetryFrom(body, s, attempt);
      JudgeFrom(run.trace + pad, attempt) == Verdict(run.outcome, |run.trace|, run.backoffs)
  {
    var o := body(s).1;
    var run := RetryFrom(body, s, attempt);
    var rest := RetryFrom(body, body(s).0, attempt + 1);
    var tail := rest.trace + pad;
    RetryUnfold(body, s, attempt);
    assert run.trace + pad == [o] + tail;
    JudgeUnfold([o] + tail, attempt);
    assert ([o] + tail)[1..] == tail;
  }

  /** Three retryable failures in a row exhaust the wrapper: the call makes
      exactly three attempts, raises the last error and ends where the third
      attempt left the state. */
  lemma RetryExhausted<S>(body: S -> (S, Outcome), s: S)
    requires var s1 := body(s).0; var s2 := body(s1).0;
      RetriedFailure(body(s).1) && RetriedFailure(body(s1).1) && RetriedFailure(body(s2).1)
    ensures var s1 := body(s).0; var s2 := body(s1).0; var run := Retry(body, s);
      run.outcome == body(s2).1 && |run.trace| == 3 && run.state == body(s2).0
  {
    var s1 := body(s).0;
    var s2 := body(s1).0;
    RetryUnfold(body, s, 0);
    RetryUnfold(body, s1, 1);
    RetryUnfold(body, s2, 2);
  }

  /** One step of the wrapper. */
  lemma RetryUnfold<S>(body: S -> (S, Outcome), s: S, attempt: nat)
    requires attempt < Attempts
    ensures var next, o := body(s).0, body(s).1;
      if o.Raised? && Classify(o.err, attempt) != Reraise then
        var rest := RetryFrom(body, next, attempt + 1);
        var pause := if Classify(o.err, attempt) == BackOffThenRetry then 1 else 0;
        RetryFrom(body, s, attempt) == Run(rest.state, rest.outcome, [o] + rest.trace, rest.backoffs + pause)
      else
        RetryFrom(body, s, attempt) == Run(next, o, [o], 0)
  {
  }

  /** One step of the policy on a script whose first outcome is `script[0]`. */
  lemma JudgeUnfold(script: seq<Outcome>, attempt: nat)
    requires attempt < Attempts && |script| == Attempts - attempt
    ensures var o := script[0];
      if o.Raised? && Classify(o.err, attempt) != Reraise then
        var later := JudgeFrom(script[1..], attempt + 1);
        var pause := if Classify(o.err, attempt) == BackOffThenRetry then 1 else 0;
        JudgeFrom(script, attempt) == Verdict(later.outcome, later.attempts + 1, later.backoffs + pause)
      else
        JudgeFrom(script, attempt) == Verdict(o, 1, 0)
  {
  }

  /** A property of states that every attempt preserves holds after the run. */
  lemma {:induction false} RetryPreserves<S>(body: S -> (S, Outcome), inv: S -> bool, s: S, attempt: nat)
    requires attempt < Attempts
    requires inv(s)
    requires forall x :: inv(x) ==> inv(body(x).0)
    ensures inv(RetryFrom(body, s, attempt).state)
    decreases Attempts - attempt
  {
    var (next, o) := body(s);
    if o.Raised? && Classify(o.err, attempt) != Reraise {
      RetryPreserves(body, inv, next, attempt + 1);
    }
  }

  /** The run ends with an attempt made from a state `m` that the starting
      state reaches through failed attempts: if failed attempts keep `inv` and
      advance the preorder `rel`, then `inv(m)` and `rel(s, m)` hold, and the
      run's final state and outcome are those of the attempt made from `m`. */
  lemma {:induction false} RetryLastAttempt<S>(body: S -> (S, Outcome), inv: S -> bool, rel: (S, S) -> bool, s: S, attempt: nat)
    requires attempt < Attempts
    requires inv(s)
    requires forall x :: rel(x, x)
    requires forall x, y, z :: rel(x, y) && rel(y, z) ==> rel(x, z)
    requires forall x :: inv(x) && body(x).1.Raised? ==> inv(body(x).0) && rel(x, body(x).0)
    ensures exists m :: (inv(m) && rel(s, m) &&
      body(m) == (RetryFrom(body, s, attempt).state, RetryFrom(body, s, attempt).outcome))
    decreases Attempts - attempt
  {
    var run := RetryFrom(body, s, attempt);
    var (next, o) := body(s);
    if o.Raised? && Classify(o.err, attempt) != Reraise {
      RetryLastAttempt(body, inv, rel, next, attempt + 1);
      var m :| inv(m) && rel(next, m) && body(m) == (run.state, run.outcome);
      assert rel(s, m);
    } else {
      assert body(s) == (run.state, run.outcome);
    }
  }

  /** If every attempt raises a counter by at most k, the run raises it by at
      most k per attempt made. */
  lemma {:induction false} RetryCountBound<S>(body: S -> (S, Outcome), count: S -> int, k: nat, s: S, attempt: nat)
    requires attempt < Attempts
    requires forall x :: count(x) <= count(body(x).0) <= count(x) + k
    ensures var run := RetryFrom(body, s, attempt);
      count(s) <= count(run.state) <= count(s) + k * |run.trace|
    decreases Attempts - attempt
  {
    var run := RetryFrom(body, s, attempt);
    var next, o := body(s).0, body(s).1;
    assert count(s) <= count(next) <= count(s) + k;
    RetryUnfold(body, s, attempt);
    if o.Raised? && Classify(o.err, attempt) != Reraise {
      var rest := RetryFrom(body, next, attempt + 1);
      RetryCountBound(body, count, k, next, attempt + 1);
      assert run.state == rest.state && |run.trace| == 1 + |rest.trace|;
      MulSucc(k, |rest.trace|);
    } else {
      assert run.state == next && |run.trace| == 1;
    }
  }

  lemma MulSucc(k: nat, n: nat)
    ensures k * (1 + n) == k + k * n
  {
  }
}

=== FILE: session.dfy ===
/** One device session (BJLEDInstance): the last commanded light state, the
    lazily opened BLE link with its write characteristic, and the idle
    disconnect timer. The BLE stack is an oracle: its replies to the n-th
    connect, write and disconnect call are inputs, and a log of the calls made
    is part of the world. */
module Session {
  import opened Base
  import opened Commands

  type Uuid = string

  /** The characteristic UUIDs a device's GATT table offers. */
  type Services = set<Uuid>

  /** Candidate write characteristics, tried in order. */
  const WriteCharacteristicUuids: seq<Uuid> := ["0000ffe1-0000-1000-8000-00805f9b34fb"]

  /** The session's client: none, one whose link is up, or one whose link the
      stack reported lost (the object is kept until the next teardown). */
  datatype Client = NoClient | Connected(services: Services) | Dropped(services: Services)

  /** The idle disconnect timer. A cancelled handle can never fire, so it is
      represented as NoTimer. */
  datatype Timer = NoTimer | Pending

  datatype State = State(
    isOn: Option<bool>,
    rgb: Option<Rgb>,
    brightness: Option<int>,
    effect: Option<string>,
    client: Client,
    writeChar: Option<Uuid>,
    cachedServices: Option<Services>,
    expectedDisconnect: bool,
    timer: Timer)

  /** The effects table: effect name to one-byte code, AUTO being 255. */
  type EffectTable = m: map<string, Byte> | "AUTO" in m && m["AUTO"] == 255 && forall k | k in m :: 1 <= m[k]
    witness map["AUTO" := 255]

  /** The names set_effect accepts: "None" followed by the table's names. */
  predicate KnownEffect(effects: EffectTable, name: string)
  {
    name == "None" || name in effects
  }

  /** Per-session settings fixed at construction: the idle delay in seconds
      (None or 0 disables auto-disconnect) and the effects table. */
  datatype Config = Config(delay: Option<int>, effects: EffectTable)

  predicate AutoDisconnects(delay: Option<int>)
  {
    delay.Some? && delay.value != 0
  }

  /** The stack's reply to a connect call, to a write call and to a
      disconnect call. A refused write may take the link down with it: the
      stack then reports the disconnect before the error reaches the caller. */
  datatype LinkReply = Linked(services: Services) | LinkFailed(fault: Fault)
  datatype WriteReply = Written | WriteFailed(fault: Fault, linkLost: bool)
  datatype Reply = Ack | Fails(fault: Fault)

  /** The stack's replies, indexed by how many calls of that kind came before. */
  datatype Stack = Stack(link: nat -> LinkReply, write: nat -> WriteReply, close: nat -> Reply)

  /** The calls made so far: connect attempts, written packets (each write
      call, whether or not it failed), disconnect calls. */
  datatype Log = Log(connects: nat, writes: seq<Packet>, closes: nat)

  /** What a session runs against and never changes: its settings and the
      stack's behaviour. */
  datatype Env = Env(cfg: Config, stack: Stack)

  /** What the session's operations change: its state and the call log. */
  datatype World = World(state: State, log: Log)

  /** The state a freshly constructed session starts in. */
  const Fresh: State := State(None, None, Some(255), None, NoClient, None, None, false, NoTimer)

  const Start: World := World(Fresh, Log(0, [], 0))

  /** What every reachable state satisfies: a brightness is always stored, a
      timer is pending only when an idle delay is configured, a session
      without a client has no write characteristic, a live client's
      disconnect counts as unexpected, and a stored effect is in the table. */
  predicate Valid(cfg: Config, s: State)
  {
    s.brightness.Some? &&
    (s.timer.Pending? ==> AutoDisconnects(cfg.delay)) &&
    (s.client.NoClient? ==> s.writeChar.None?) &&
    (s.client.Connected? ==> !s.expectedDisconnect) &&
    (s.effect.Some? ==> s.effect.value in cfg.effects)
  }

  /** The part of the state a light command can change. */
  predicate SameLight(a: State, b: State)
  {
    a.isOn == b.isOn && a.rgb == b.rgb && a.brightness == b.brightness && a.effect == b.effect
  }

  /** `u` is the first candidate the services offer. */
  predicate FirstOffered(candidates: seq<Uuid>, services: Services, u: Uuid)
  {
    exists i :: 0 <= i < |candidates| && candidates[i] == u && u in services &&
      forall j :: 0 <= j < i ==> candidates[j] !in services
  }

  predicate OffersAny(candidates: seq<Uuid>, services: Services)
  {
    exists i :: 0 <= i < |candidates| && candidates[i] in services
  }

  /** _resolve_characteristics: the first candidate the services offer becomes
      the write characteristic; when none is offered the current one stays. */
  function Resolve(candidates: seq<Uuid>, services: Services, current: Option<Uuid>): (r: Option<Uuid>)
    ensures OffersAny(candidates, services) ==> r.Some? && FirstOffered(candidates, services, r.value)
    ensures !OffersAny(candidates, services) ==> r == current
  {
    if candidates == [] then current
    else if candidates[0] in services then
      assert FirstOffered(candidates, services, candidates[0]) by {
        assert candidates[0] == candidates[0];
      }
      Some(candidates[0])
    else
      var r := Resolve(candidates[1..], services, current);
      assert OffersAny(candidates, services) ==> OffersAny(candidates[1..], services) by {
        if OffersAny(candidates, services) {
          var i :| 0 <= i < |candidates| && candidates[i] in services;
          assert candidates[1..][i - 1] in services;
        }
      }
      assert OffersAny(candidates[1..], services) ==> OffersAny(candidates, services) by {
        if OffersAny(candidates[1..], services) {
          var i :| 0 <= i < |candidates[1..]| && candidates[1..][i] in services;
          assert candidates[i + 1] in services;
        }
      }
      assert r.Some? && FirstOffered(candidates[1..], services, r.value) ==> FirstOffered(candidates, services, r.value) by {
        if r.Some? && FirstOffered(candidates[1..], services, r.value) {
          var i :| 0 <= i < |candidates[1..]| && candidates[1..][i] == r.value && r.value in services &&
            forall j :: 0 <= j < i ==> candidates[1..][j] !in services;
          assert forall j :: 0 <= j < i + 1 ==> candidates[j] !in services by {
            forall j | 0 <= j < i + 1
              ensures candidates[j] !in services
            {
              if j > 0 {
                assert candidates[j] == candidates[1..][j - 1];
              }
            }
          }
          assert candidates[i + 1] == r.value;
        }
      }
      r
  }

  /** Resolving again on the same services changes nothing, so the source's
      second resolution attempt on the same collection cannot succeed where
      the first failed. */
  lemma ResolveIdempotent(candidates: seq<Uuid>, services: Services, current: Option<Uuid>)
    ensures Resolve(candidates, services, Resolve(candidates, services, current)) == Resolve(candidates, services, current)
  {
    var once := Resolve(candidates, services, current);
    var twice := Resolve(candidates, services, once);
    if OffersAny(candidates, services) {
      FirstOfferedUnique(candidates, services, once.value, twice.value);
    }
  }

  lemma FirstOfferedUnique(candidates: seq<Uuid>, services: Services, u: Uuid, v: Uuid)
    requires FirstOffered(candidates, services, u) && FirstOffered(candidates, services, v)
    ensures u == v
  {
    var i :| 0 <= i < |candidates| && candidates[i] == u && u in services &&
      forall j :: 0 <= j < i ==> candidates[j] !in services;
    var k :| 0 <= k < |candidates| && candidates[k] == v && v in services &&
      forall j :: 0 <= j < k ==> candidates[j] !in services;
    assert candidates[i] in services && candidates[k] in services;
  }

  /** _reset_disconnect_timer: the disconnect counts as unexpected again, and
      a timer is pending exactly when an idle delay is configured. */
  function ResetTimer(cfg: Config, s: State): (t: State)
    ensures !t.expectedDisconnect
    ensures t.timer == Pending <==> AutoDisconnects(cfg.delay)
    ensures t.(expectedDisconnect := s.expectedDisconnect, timer := s.timer) == s
  {
    s.(expectedDisconnect := false, timer := if AutoDisconnects(cfg.delay) then Pending else NoTimer)
  }

  /** _ensure_connected: reuse a live client, or open a new link, resolve the
      write characteristic on it and cache its services when one was found. */
  function EnsureConnected(env: Env, w: World): (r: (World, Outcome))
    ensures SameLight(w.state, r.0.state)
    ensures r.0.log.writes == w.log.writes && r.0.log.closes == w.log.closes
    ensures w.state.client.Connected? ==>
      r.1 == Done && r.0.log == w.log && r.0.state.client == w.state.client &&
      r.0.state.writeChar == w.state.writeChar && r.0.state.cachedServices == w.state.cachedServices
    ensures !w.state.client.Connected? ==> r.0.log.connects == w.log.connects + 1
    ensures r.1.Done? <==> r.0.state.client.Connected?
    ensures r.1.Done? ==> !r.0.state.expectedDisconnect && (r.0.state.timer == Pending <==> AutoDisconnects(env.cfg.delay))
    ensures r.1.Raised? ==>
      r.0.state == w.state && r.1.err.Transport? && !w.state.client.Connected? &&
      env.stack.link(w.log.connects) == LinkFailed(r.1.err.fault)
    ensures Valid(env.cfg, w.state) ==> Valid(env.cfg, r.0.state)
    ensures !w.state.client.Connected? && r.1.Done? ==>
      env.stack.link(w.log.connects).Linked? &&
      r.0.state.client == Connected(env.stack.link(w.log.connects).services) &&
      r.0.state.writeChar == Resolve(WriteCharacteristicUuids, env.stack.link(w.log.connects).services, w.state.writeChar)
    ensures !w.state.client.Connected? && r.1.Done? ==>
      (r.0.state.cachedServices.Some? <==> r.0.state.writeChar.Some?) &&
      (r.0.state.cachedServices.Some? ==> r.0.state.cachedServices.value == r.0.state.client.services)
  {
    if w.state.client.Connected? then
      (w.(state := ResetTimer(env.cfg, w.state)), Done)
    else
      var log := w.log.(connects := w.log.connects + 1);
      match env.stack.link(w.log.connects)
      case LinkFailed(f) => (w.(log := log), Raised(Transport(f)))
      case Linked(services) =>
        var first := Resolve(WriteCharacteristicUuids, services, w.state.writeChar);
        var resolved := if first.Some? then first else Resolve(WriteCharacteristicUuids, services, first);
        var s := w.state.(
          writeChar := resolved,
          cachedServices := if resolved.Some? then Some(services) else None,
          client := Connected(services));
        (w.(state := ResetTimer(env.cfg, s), log := log), Done)
  }

  /** The stack acknowledged the last write, made after `before`. */
  predicate Delivered(env: Env, before: World, after: World)
  {
    |after.log.writes| > |before.log.writes| && env.stack.write(|after.log.writes| - 1) == Written
  }

  /** Between two worlds, nothing but `p` was written. */
  predicate Sent(p: Packet, before: World, after: World)
  {
    before.log.writes <= after.log.writes &&
    forall i :: |before.log.writes| <= i < |after.log.writes| ==> after.log.writes[i] == p
  }

  /** The stack refused every write made between two worlds. */
  predicate Refused(env: Env, before: World, after: World)
  {
    forall i :: |before.log.writes| <= i < |after.log.writes| ==> env.stack.write(i).WriteFailed?
  }

  /** A call that took `before` to `after` with outcome `o` wrote nothing but
      `p`; if it returned, the device acknowledged its last write, and if it
      raised, the device refused every write it made. */
  predicate WroteOnly(env: Env, p: Packet, before: World, after: World, o: Outcome)
  {
    Sent(p, before, after) &&
    (o.Done? ==> Delivered(env, before, after)) &&
    (o.Raised? ==> Refused(env, before, after))
  }

  /** Refused writes of `p` followed by a call that wrote only `p`: together
      they wrote only `p`, with the later call's outcome. */
  lemma WroteOnlyChain(env: Env, p: Packet, a: World, b: World, c: World, o: Outcome)
    requires Sent(p, a, b) && Refused(env, a, b)
    requires WroteOnly(env, p, b, c, o)
    ensures WroteOnly(env, p, a, c, o)
  {
    assert Sent(p, a, c) by {
      forall i | |a.log.writes| <= i < |c.log.writes|
        ensures c.log.writes[i] == p
      {
        if i < |b.log.writes| {
          assert c.log.writes[i] == b.log.writes[i];
        }
      }
    }
  }

  /** _write: connect if needed, then write `p` to the characteristic. A
      refused write raises the stack's error; if it took the link down, the
      client is left disconnected and the next call reconnects. */
  function Send(env: Env, w: World, p: Packet): (r: (World, Outcome))
    ensures Sent(p, w, r.0) && SameLight(w.state, r.0.state)
    ensures |r.0.log.writes| <= |w.log.writes| + 1 && r.0.log.closes == w.log.closes
    ensures r.1.Done? <==> Delivered(env, w, r.0)
    ensures WroteOnly(env, p, w, r.0, r.1)
    ensures r.1.Raised? ==> r.1.err.Transport?
    ensures r.1.Raised? && |r.0.log.writes| == |w.log.writes| ==>
      !w.state.client.Connected? && env.stack.link(w.log.connects).LinkFailed? &&
      r.1 == Raised(Transport(env.stack.link(w.log.connects).fault))
    ensures r.1.Raised? && |r.0.log.writes| > |w.log.writes| ==>
      env.stack.write(|w.log.writes|).WriteFailed? &&
      r.1 == Raised(Transport(env.stack.write(|w.log.writes|).fault)) &&
      (r.0.state.client.Dropped? <==> env.stack.write(|w.log.writes|).linkLost)
    ensures r.1.Done? ==> r.0.state.client.Connected?
    ensures |r.0.log.writes| > |w.log.writes| ==> !r.0.state.client.NoClient?
    ensures Valid(env.cfg, w.state) ==> Valid(env.cfg, r.0.state)
    ensures w.state.client.Connected? ==> r.0.log.connects == w.log.connects && |r.0.log.writes| == |w.log.writes| + 1
    ensures !w.state.client.Connected? ==> r.0.log.connects == w.log.connects + 1
    ensures |r.0.log.writes| > |w.log.writes| ==>
      (w.state.client.Connected? || env.stack.link(w.log.connects).Linked?) &&
      (r.0.state.timer == Pending <==> AutoDisconnects(env.cfg.delay))
  {
    var (linked, o) := EnsureConnected(env, w);
    if o.Raised? then (linked, o)
    else
      var n := |linked.log.writes|;
      var written := linked.(log := linked.log.(writes := linked.log.writes + [p]));
      match env.stack.write(n)
      case Written => (written, Done)
      case WriteFailed(f, lost) => (if lost then LinkLost(written) else written, Raised(Transport(f)))
  }

  /** Disconnect errors that are BleakErrors are logged and swallowed. */
  predicate SwallowedOnClose(f: Fault)
  {
    f == NotFound || f == DBus || f == Bleak
  }

  /** stop and _execute_disconnect: forget the client and the write
      characteristic, mark the disconnect as expected, and close the link only
      if it is up. A pending timer is not cancelled. */
  function Stop(env: Env, w: World): (r: (World, Outcome))
    ensures r.0.state.client == NoClient && r.0.state.writeChar == None && r.0.state.expectedDisconnect
    ensures r.0.state.(client := w.state.client, writeChar := w.state.writeChar,
                       expectedDisconnect := w.state.expectedDisconnect) == w.state
    ensures r.0.log.(closes := w.log.closes) == w.log
    ensures r.0.log.closes == w.log.closes + (if w.state.client.Connected? then 1 else 0)
    ensures r.1.Raised? <==>
      w.state.client.Connected? && env.stack.close(w.log.closes).Fails? &&
      !SwallowedOnClose(env.stack.close(w.log.closes).fault)
    ensures r.1.Raised? ==>
      env.stack.close(w.log.closes).Fails? && r.1 == Raised(Transport(env.stack.close(w.log.closes).fault))
    ensures Valid(env.cfg, w.state) ==> Valid(env.cfg, r.0.state)
  {
    var s := w.state.(expectedDisconnect := true, client := NoClient, writeChar := None);
    if w.state.client.Connected? then
      var closed := World(s, w.log.(closes := w.log.closes + 1));
      match env.stack.close(w.log.closes)
      case Ack => (closed, Done)
      case Fails(f) => (closed, if SwallowedOnClose(f) then Done else Raised(Transport(f)))
    else
      (w.(state := s), Done)
  }

  /** _disconnect followed by _execute_timed_disconnect: a pending timer fires,
      forgets itself and tears the link down as stop does. Without a pending
      timer nothing fires. */
  function TimerFires(env: Env, w: World): (r: (World, Outcome))
    ensures r.0.state.timer == NoTimer
    ensures w.state.timer == NoTimer ==> r == (w, Done)
    ensures w.state.timer == Pending ==> r == Stop(env, w.(state := w.state.(timer := NoTimer)))
    ensures Valid(env.cfg, w.state) ==> Valid(env.cfg, r.0.state)
  {
    if w.state.timer.Pending? then Stop(env, w.(state := w.state.(timer := NoTimer))) else (w, Done)
  }

  /** The stack reports the link lost: the client object stays but is no
      longer connected. The disconnected callback itself only logs. */
  function LinkLost(w: World): (r: World)
    ensures w.state.client.Connected? ==> r.state.client == Dropped(w.state.client.services)
    ensures !w.state.client.Connected? ==> r == w
    ensures r.state.(client := w.state.client) == w.state && r.log == w.log
    ensures forall cfg :: Valid(cfg, w.state) ==> Valid(cfg, r.state)
  {
    if w.state.client.Connected? then w.(state := w.state.(client := Dropped(w.state.client.services))) else w
  }

  /** A second stop makes no transport call and changes nothing. */
  lemma StopTwice(env: Env, w: World)
    ensures var once := Stop(env, w).0;
      Stop(env, once) == (once, Done)
  {
  }

  /** A timer that fires after a stop makes no transport call. */
  lemma TimerAfterStop(env: Env, w: World)
    ensures var stopped := Stop(env, w).0;
      TimerFires(env, stopped).0.log == stopped.log && TimerFires(env, stopped).1 == Done
  {
  }
}
